=== FILE: README.md ===
# Anime recommender: catalogue queries

A Dafny model of the query logic of `AnimeRecommendationSystem` in
`anime_upgrade.py`:

- **Preprocessing** (`preprocess_data`). Missing genre and type become
  `"Unknown"`. The rating, members and episodes cells are read as numbers
  (text such as `"8.78"` is read as the decimal it spells), and unreadable
  ones become 0. Each row gets `combined_features`, its genre
  and type joined by a space. Rating-log rows with a missing cell or a
  non-numeric rating are dropped.
- **Category list** (`_extract_categories`). Every genre value other than
  the exact string `"Unknown"` is split on commas, each piece is stripped,
  and the distinct pieces are sorted.
- **Category query** (`get_category_recommendations`):
  - look the category up ignoring case;
  - keep the rows whose genre contains it and whose rating is at least 5.0;
  - rank them by rating, then members, both descending;
  - take the first `top_n` (`head`, so a negative `top_n` drops rows from
    the end);
  - display them before returning them; the display measures each row's
    name, so a row without a name makes the query fail.
- **Content query** (`get_content_recommendations`):
  - resolve the title to the first row whose name contains it;
  - sort that row's similarity scores descending, with a stable sort;
  - drop the top-ranked entry;
  - return the next `top_n` rows with their scores.

  The similarity matrix is an input: one row of scores per catalogue row, or
  `None` before `build_content_model` has run.

The modules follow the program's structure:

- `Catalogue`: the row types and `preprocess_data`.
- `Categories`: `_extract_categories`.
- `CategoryQuery` and `ContentQuery`: the two queries.
- Helper modules for Python's string operations (`Text`), decimal parsing
  (`Numeric`), slicing and masks (`Seqs`), sorting (`Sorting`) and the
  stable descending rankings both queries use (`Ranking`).

The error strings become `Catalogue.QueryError` values in a `Result`.

Some consequences of `anime_upgrade.py` as written:

- Rating-log cleaning drops only rows with a missing cell or a non-numeric
  rating (anime_upgrade.py:59-63).
- The code has no collaborative-filtering path, no popularity ranking and
  no de-duplication by name.
- Empty pieces of a genre, as in `"Action,,Drama"` or a trailing comma, are
  kept as the category `""`, as `str.split` keeps them.
- A genre is excluded from the category list only when it is exactly
  `"Unknown"`.

A stable sort is modelled as a strict total order: key descending, then
table position ascending. Under that order the ranked sequence is unique
(`Ranking.RankingUnique`).

## Model

| member | source | states |
|---|---|---|
| Text.Strip | anime_upgrade.py:74 | `g.strip()` removes exactly the leading and trailing `str.isspace` characters and keeps the middle unchanged |
| Text.Split | anime_upgrade.py:74 | `genres.split(',')` yields at least one piece, no piece holds a comma, and joining the pieces with commas gives the input back |
| Text.StripKeepsCharacters | anime_upgrade.py:74 | stripping only removes characters, so a stripped piece has no character its field lacks |
| Text.SplitJoin | anime_upgrade.py:74 | splitting comma-free pieces joined by commas gives those pieces back |
| Text.LexLessIsStrictTotalOrder | anime_upgrade.py:78 | Python's string `<`, which `sorted` uses, is irreflexive, transitive and total, so `sorted(set(...))` has exactly one result |
| Text.LexLessProperPrefix | anime_upgrade.py:78 | a string sorts before any longer string it is a prefix of |
| Numeric.ParseDecimal | anime_upgrade.py:41 | a text cell is read as a number exactly when it is an optional sign, digits, and optionally a point and more digits; the sign is negative exactly for a leading '-' |
| Numeric.ParseShow | anime_upgrade.py:41 | reading back the spelling of any decimal (sign, whole part, fraction digits) gives that decimal |
| Text.LowerChar | anime_upgrade.py:107-108 | `str.lower()` on a character: the result is never a capital, a character that is not a capital is unchanged, and a capital maps to its small letter |
| Text.Lower | anime_upgrade.py:107-108 | `str.lower()` keeps the length and lowers each character |
| Text.LowerIdempotent | anime_upgrade.py:107-108 | lowering an already lowered string changes nothing |
| Text.EqualsIgnoringCaseCharwise | anime_upgrade.py:108 | `cat.lower() == category.lower()` holds exactly when the strings have equal length and agree character by character once lowered |
| Text.ContainsIgnoringCaseCharwise | anime_upgrade.py:121 | `str.contains(..., case=False)` holds exactly when the needle matches the text at some position, character by character, ignoring case |
| Text.ExactMatchIgnoringCase | anime_upgrade.py:121 | a text that contains the needle exactly also contains it ignoring case |
| Seqs.FirstWhere | anime_upgrade.py:231 | `df[mask].index[0]` is the first position whose row satisfies the mask, and there is none exactly when no row does |
| Seqs.Positions | anime_upgrade.py:120-122 | a boolean mask keeps exactly the rows satisfying it, in table order |
| Seqs.FlatMap | anime_upgrade.py:71-75 | `all_genres.extend(...)` over the rows holds exactly the pieces of some row |
| Seqs.Slice | anime_upgrade.py:238 | `xs[lo:hi]` has Python's length, with negative bounds counted from the end, and the elements from the clamped start |
| Seqs.Head | anime_upgrade.py:146 | `head(n)` is a prefix: the first `min(n, len)` rows for n >= 0, and all but the last -n rows for n < 0 |
| Sorting.SortDistinct | anime_upgrade.py:78 | the result is strictly sorted and holds exactly the input's elements, each once |
| Sorting.SortedUnique | anime_upgrade.py:78 | two strictly sorted sequences with the same elements are equal |
| Ranking.RankOf | anime_upgrade.py:138 | the stable descending sort lists exactly the given rows, each ranked before every row after it |
| Ranking.RankingUnique | anime_upgrade.py:138 | any sequence ranking the given rows is the one the sort returns |
| Ranking.HigherKeyFirst | anime_upgrade.py:138 | a row with a strictly higher key is ranked before one with a lower key |
| Categories.Pieces | anime_upgrade.py:74 | a genre value yields one stripped piece per comma-separated field, none containing a comma or edge whitespace |
| Categories.SinglePiece | anime_upgrade.py:74 | a genre that is a single clean tag yields just that tag |
| Categories.AllPieces | anime_upgrade.py:69-75 | `all_genres` holds exactly the pieces of the genre values other than `"Unknown"` |
| Categories.Extract | anime_upgrade.py:67-78 | `available_categories` is strictly sorted, has no repeats, and holds exactly the pieces of the genre values other than `"Unknown"` |
| Categories.ExtractIsTheSortedSet | anime_upgrade.py:78 | any sorted, repeat-free list of exactly those categories is the category list |
| Categories.ExtractTwoTags | anime_upgrade.py:69-78 | two single-tag genre values in sorted order make up the whole category list |
| Catalogue.ToNumber | anime_upgrade.py:41 | `to_numeric(errors='coerce')` gives NaN for an empty cell, keeps numbers, and reads text exactly when it is a decimal literal |
| Catalogue.Coerce | anime_upgrade.py:41 | after `fillna(0)` a number is kept, and an empty cell or text that is not a decimal literal becomes 0 |
| Catalogue.CoerceReadsDecimalText | anime_upgrade.py:41 | a numeric field holding the spelling of a decimal is read as the number that decimal denotes |
| Catalogue.CoerceReadsIntegerText | anime_upgrade.py:41 | a numeric field written as an integer is read as that integer |
| Catalogue.CoerceReadsRating | anime_upgrade.py:41 | the rating text `"8.78"` is read as 8.78 |
| Catalogue.FillText | anime_upgrade.py:35 | `fillna('Unknown')` keeps a present value, and gives `"Unknown"` exactly for a missing value or one that already read `"Unknown"` |
| Catalogue.KeepsExactly | anime_upgrade.py:60-63 | a rating-log row survives the two `dropna()` calls and the coercion exactly when no cell is missing and its rating is a number or a decimal literal |
| Catalogue.Cleaned | anime_upgrade.py:60-63 | a surviving row keeps its user and anime cells and has its rating read as a number |
| Catalogue.CleanedRoundTrip | anime_upgrade.py:60-63 | a clean rating written back as a raw row survives cleaning and comes back unchanged |
| Catalogue.Normalise | anime_upgrade.py:32-56 | a cleaned row keeps its name, fills a missing genre or type with `"Unknown"`, coerces its three numeric fields, and has combined features equal to genre + " " + type |
| Catalogue.Raw | anime_upgrade.py:32-56 | cleaning an already clean row gives the same row back |
| Catalogue.CleanRatings | anime_upgrade.py:59-63 | the cleaned log holds exactly the rows with no missing user or anime and a numeric rating, with the rating read as a number |
| Catalogue.Preprocess | anime_upgrade.py:29-63 | every row is cleaned in place; the categories are sorted and are exactly the pieces of the present genre values other than `"Unknown"`; the rating log is cleaned when present |
| Catalogue.PreprocessIdempotent | anime_upgrade.py:29-63 | preprocessing an already preprocessed catalogue changes neither the rows nor the categories |
| CategoryQuery.SelectCategory | anime_upgrade.py:106-117 | the selected category is the first in the list equal to the request ignoring case, and there is none exactly when no category matches |
| CategoryQuery.MatchingPositions | anime_upgrade.py:120-122 | `category_anime` holds exactly the rows whose genre matches the selected category |
| CategoryQuery.EligiblePositions | anime_upgrade.py:120-131 | the rows kept after the rating filter are exactly those that match and have rating >= 5.0, in table order |
| CategoryQuery.RankedPositions | anime_upgrade.py:137-138 | the kept rows, all of them, ranked by rating and then members, descending, ties in table order |
| CategoryQuery.RankedPicks | anime_upgrade.py:137-146 | the ranked rows as the returned columns, each kept by both filters, rating non-increasing and members non-increasing on equal ratings |
| CategoryQuery.RankedInOrder | anime_upgrade.py:138 | consecutive returned rows are in rating-then-members order |
| CategoryQuery.PrefixIsComplete | anime_upgrade.py:138-146 | no kept row that ranks strictly higher than a returned row is left out of the first n |
| CategoryQuery.TopPicks | anime_upgrade.py:146 | the result is a prefix of the ranked rows: the first `min(top_n, kept)` for top_n >= 0, all but the last -top_n for top_n < 0; it contains every kept row ranked strictly above one of its rows |
| CategoryQuery.TopPicksFacts | anime_upgrade.py:137-146 | the top picks form a `RankedHead`: kept by both filters, in rank order, and as many as `head(top_n)` keeps of the kept rows, for either sign of top_n |
| CategoryQuery.Recommend | anime_upgrade.py:101-165 | not loaded exactly when there are no categories; not found exactly when no category matches ignoring case; no anime exactly when no genre matches the selection; the display failure exactly when some genre matches and some top pick has no name; success exactly when a category is selected, some genre matches and every top pick is named, and the result is then those top picks; no other error |
| CategoryQuery.CategoryRecommendations | anime_upgrade.py:101-165 | not loaded exactly when there are no categories; not found exactly when no category matches ignoring case; no anime exactly when no genre contains the selection; the display failure exactly when some genre contains it and a top pick has no name; success exactly when a category is selected, some genre contains it and every top pick is named; no other error; on success the result is exactly the first top_n rows of the ranking (`TopPicks`): every row is named, its genre contains the selection, its rating is >= 5.0, rows are ordered by rating then members, and there are `min(top_n, kept)` rows for top_n >= 0 and `max(kept + top_n, 0)` for top_n < 0 |
| CategoryQuery.LongerTagContainsShorter | anime_upgrade.py:121 | a genre tagged only with a longer tag starting with the category contains it as a substring, though it does not carry it as a tag |
| CategoryQuery.SubstringMatchesLongerTag | anime_upgrade.py:120-122 | for any tag and longer tag starting with it, the query for the tag returns a row tagged only with the longer tag, and the tag-based query does not |
| CategoryQuery.ShounenCategoriesAreExtracted | anime_upgrade.py:67-78 | a catalogue with the genres "Shounen" and "Shounen Ai" has exactly those two categories |
| CategoryQuery.ShounenMatchesShounenAi | anime_upgrade.py:120-122 | the query for "Shounen" returns the row tagged only "Shounen Ai" |
| CategoryQuery.CategoryRecommendationsByTag | anime_upgrade.py:101-165 | the tag-based query: the same errors, each exactly when it occurs, success exactly when a category is selected, some row carries it as a genre tag and every top pick is named; on success exactly the first top_n rows of its ranking, with the same order and lengths as the original, but every returned row carries the selected category as one of its genre tags |
| ContentQuery.Resolve | anime_upgrade.py:229-233 | the seed is the first row whose name contains the title ignoring case; a row without a name never matches; there is none exactly when no row matches |
| ContentQuery.Ranked | anime_upgrade.py:235-236 | `sorted(enumerate(scores), key=lambda x: x[1], reverse=True)` lists every row once, by score descending, ties in table order |
| ContentQuery.SelectSimilar | anime_upgrade.py:235-246 | entries are ranking positions 1.. with their own scores, in non-increasing score order; rank 0 is never returned; length `min(top_n, n-1)` for top_n >= 0 and no rows for a negative top_n that does not raise; an error exactly when top_n <= -2 leaves a non-empty slice |
| ContentQuery.ContentRecommendations | anime_upgrade.py:224-248 | not built exactly when there is no matrix; not found exactly when no name contains the title; once the title resolves, success exactly when the selection from the seed's score row succeeds, and otherwise its column-length error; for top_n >= 0 always success with `min(top_n, n-1)` rows; no other error; on success the selected rows from the seed's score row, with their columns and scores |
| ContentQuery.SeedRecommendedOnTie | anime_upgrade.py:231-246 | with two equally similar rows "Alpha" and "Beta", asking for "Beta" returns "Beta" itself, and the corrected query returns "Alpha" |
| ContentQuery.RankingTail | anime_upgrade.py:236-238 | the ranking without its first entry ranks every row except that first one |
| ContentQuery.SelectSimilarExcludingSeed | anime_upgrade.py:235-246 | the corrected selection never returns the seed; it returns the first rows of the ranking of the other rows, with their own scores, in non-increasing score order; there are `min(top_n, n-1)` of them for top_n > 0 and none for top_n <= 0 |
| ContentQuery.ExcludingSeedIsComplete | anime_upgrade.py:236-238 | the corrected selection leaves out no row, other than the seed, that scores higher than a returned row |
| ContentQuery.ExcludingSeedAgreesWhenSeedRanksFirst | anime_upgrade.py:238 | whenever the seed is ranked first and top_n >= 0, the original and the corrected selections are equal |
| ContentQuery.ContentRecommendationsExcludingSeed | anime_upgrade.py:224-248 | the corrected content query: not built and not found exactly as in the original, and no other error, so a negative top_n gives no rows instead of the column-length error; the rows are the corrected selection's rows, in its order, so never the seed and the most similar of the others; scores from the seed's row, non-increasing; `min(top_n, n-1)` rows for top_n > 0 and none otherwise |

## Left out

- Reading the CSV files (`load_data`, `main`) is file I/O. The tables are inputs.
- `build_content_model` is not modelled: TF-IDF and cosine similarity are scikit-learn floating-point work. The similarity matrix is an input, required to be square with one row per catalogue row. `StandardScaler` is created but never used.
- The console output is not modelled:
  - `display_available_categories`;
  - the printing of `_display_category_recommendations`. Its one failure, `len(row['name'])` on a missing name (anime_upgrade.py:164-165), is modelled as `UnnamedRecommendation`;
  - `interactive_category_selection`;
  - the "Did you mean" suggestions printed before the not-found error;
  - the progress messages.
- `str.contains` treats its pattern as a regular expression. The model uses a plain case-insensitive substring test, which agrees for categories and titles without regex metacharacters.
- A fixed table schema is assumed: every column exists. The branches that test whether a column is present are not modelled, and neither is the fallback to another name or rating column.
- Table index labels are taken to be positions, as after `read_csv`. `index[0]` and `iloc` then agree.
- Catalogue.ToNumber: text is read as a number only when it is `[+-]digits[.digits]`. pandas' own parser also accepts surrounding spaces, exponents (`"1e3"`), a bare leading or trailing point (`".5"`, `"5."`) and `"inf"`; that parser is compiled code whose full grammar is not modelled, and these forms become NaN here. The text `"nan"` is NaN in both, and 0 after `fillna(0)`.
- Catalogue.Coerce: the text forms listed for Catalogue.ToNumber become 0 here, where pandas reads them as numbers.
- Numeric.ParseDecimal: reads only `[+-]digits[.digits]`, for the reason given for Catalogue.ToNumber.
- Text.LowerChar: `str.lower()` is modelled for ASCII and Latin-1 capitals only.
- Ratings, members, episodes and scores are exact reals. Floating-point rounding and NaN scores in the similarity row are not modelled.
- The `isinstance(genres, str)` test is not modelled: genre cells are always text after filling.
- Catalogue.CleanRatings: states which rows survive and their size bound, but not that their order is kept.
- pandas `sort_values` on two columns is taken to be stable, so ties on rating and members stay in table order.
- For top_n <= -2 with a non-empty slice, the source raises an exception: its score list is shorter than the frame. The model returns `ScoreCountMismatch`.
- `app.py` is not part of this model: it is a Streamlit interface with HTTP calls and threads. `test_imports.py` and `tempCodeRunnerFile.py` are not part of this model either.

## Findings

| source | as written | input that shows it | evidently intended | confidence | as-written member | corrected member |
|---|---|---|---|---|---|---|
| anime_upgrade.py:236-238 | drops `sim_scores[0]`, the top-ranked entry, taking it to be the queried title | two rows with the same genre and type, "Alpha" then "Beta", similarity all 1.0, query "Beta": the stable sort ranks "Alpha" first, so "Alpha" is dropped and "Beta" is recommended to itself | the queried row itself is never recommended | not executed; medium: exact ties need identical feature vectors, and floating-point rounding may break them either way | ContentQuery.SeedRecommendedOnTie | ContentQuery.ContentRecommendationsExcludingSeed |
| anime_upgrade.py:120-122 | keeps rows whose genre contains the category as a substring | category "Shounen" with rows tagged "Shounen" (rating 4.0) and "Shounen Ai" (rating 7.0): the "Shounen Ai" row is returned | only rows carrying the selected category among their comma-separated tags | not executed; medium: the substring test may be a deliberate loose match | CategoryQuery.ShounenMatchesShounenAi | CategoryQuery.CategoryRecommendationsByTag |

=== FILE: catalogue.dfy ===
/**
 The catalogue and rating-log tables and their clean-up (`preprocess_data`).
 A raw catalogue row holds cells as read from the CSV file; a cleaned row has
 its text fields filled, its numeric fields read as numbers, and the
 `combined_features` text the content model is built from.
 */
module Catalogue {
  import opened Wrappers
  import Numeric
  import Categories
  import Sorting
  import Text

  /** A table cell as read: empty (NaN), already numeric, or text. */
  datatype Cell = Missing | Number(value: real) | Str(text: string)

  /** A catalogue row as read from the catalogue file. */
  datatype RawAnime = RawAnime(
    name: Option<string>,
    genre: Option<string>,
    kind: Option<string>,
    rating: Cell,
    members: Cell,
    episodes: Cell)

  /** A catalogue row after clean-up; `kind` is the `type` column. */
  datatype Anime = Anime(
    name: Option<string>,
    genre: string,
    kind: string,
    rating: real,
    members: real,
    episodes: real,
    combined: string)

  /** A rating-log row as read, and after clean-up. */
  datatype RawRating = RawRating(user: Cell, anime: Cell, rating: Cell)
  datatype Rating = Rating(user: Cell, anime: Cell, rating: real)

  /** The recommender's state once the data is clean. */
  datatype Prepared = Prepared(catalogue: seq<Anime>, categories: seq<string>, ratings: Option<seq<Rating>>)

  /**
   Why a query gives no table: the error strings the queries return, and the
   two exceptions they raise (ScoreCountMismatch when the content query's
   score list is shorter than its rows; UnnamedRecommendation when the
   category query's display step measures the length of a missing name).
   */
  datatype QueryError =
    | CategoriesNotLoaded
    | CategoryNotFound(category: string)
    | NoAnimeForCategory(category: string)
    | ContentModelNotBuilt
    | AnimeNotFound(title: string)
    | ScoreCountMismatch(rows: nat, scores: nat)
    | UnnamedRecommendation

  /** `pd.to_numeric(cell, errors='coerce')`, with None for NaN. */
  function ToNumber(c: Cell): (r: Option<real>)
    ensures c.Missing? ==> r.None?
    ensures c.Number? ==> r == Some(c.value)
    ensures c.Str? ==> (r.Some? <==> Numeric.IsDecimalLiteral(c.text))
  {
    match c
    case Missing => None
    case Number(v) => Some(v)
    case Str(s) =>
      match Numeric.ParseDecimal(s)
      case Some(x) => Some(Numeric.Value(x))
      case None => None
  }

  /** `pd.to_numeric(cell, errors='coerce').fillna(0)`. */
  function Coerce(c: Cell): (r: real)
    ensures c.Number? ==> r == c.value
    ensures (c.Missing? || (c.Str? && !Numeric.IsDecimalLiteral(c.text))) ==> r == 0.0
  {
    ToNumber(c).GetOr(0.0)
  }

  /** A numeric field written as a decimal is read as the number it spells. */
  lemma CoerceReadsDecimalText(x: Numeric.Decimal)
    requires x.fraction < Numeric.Pow10(x.places)
    ensures Coerce(Str(Numeric.Show(x))) == Numeric.Value(x)
  {
    Numeric.ParseShow(x);
  }

  /** A numeric field written as an integer is read as that integer. */
  lemma CoerceReadsIntegerText(n: int)
    ensures Coerce(Str(Numeric.Show(Numeric.Decimal(n < 0, if n < 0 then -n else n, 0, 0)))) == n as real
  {
    CoerceReadsDecimalText(Numeric.Decimal(n < 0, if n < 0 then -n else n, 0, 0));
  }

  /** The rating text "8.78" is read as 8.78. */
  lemma CoerceReadsRating()
    ensures Coerce(Str("8.78")) == 8.78
  {
    var x := Numeric.Decimal(false, 8, 78, 2);
    RatingSpelling();
    assert Numeric.Value(x) == 8.78;
    CoerceReadsDecimalText(x);
  }

  lemma RatingSpelling()
    ensures Numeric.Show(Numeric.Decimal(false, 8, 78, 2)) == "8.78"
  {
    assert Numeric.ShowNat(8) == "8";
    assert Numeric.PadDigits(7, 1) == "7";
    assert Numeric.PadDigits(78, 2) == "78";
  }

  /** `fillna('Unknown')`: a present value is kept, so the result is "Unknown" only for a missing value or one that already read "Unknown". */
  function FillText(v: Option<string>): (r: string)
    ensures v.Some? ==> r == v.value
    ensures r == Categories.Unknown <==> (v.None? || v == Some(Categories.Unknown))
  {
    v.GetOr(Categories.Unknown)
  }

  /** A cleaned row's combined features are its genre and its type joined by a space. */
  predicate WellFormed(a: Anime) {
    a.combined == a.genre + " " + a.kind
  }

  /** The clean-up `preprocess_data` applies to one catalogue row. */
  function Normalise(row: RawAnime): (a: Anime)
    ensures WellFormed(a)
    ensures a.name == row.name
    ensures row.genre.Some? ==> a.genre == row.genre.value
    ensures row.genre.None? ==> a.genre == Categories.Unknown
    ensures row.kind.Some? ==> a.kind == row.kind.value
    ensures row.kind.None? ==> a.kind == Categories.Unknown
    ensures a.rating == Coerce(row.rating)
    ensures a.members == Coerce(row.members)
    ensures a.episodes == Coerce(row.episodes)
  {
    var genre := FillText(row.genre);
    var kind := FillText(row.kind);
    Anime(row.name, genre, kind, Coerce(row.rating), Coerce(row.members), Coerce(row.episodes),
          genre + " " + kind)
  }

  /** A cleaned row written back as a raw row; cleaning it again gives the same row. */
  function Raw(a: Anime): (row: RawAnime)
    ensures WellFormed(a) ==> Normalise(row) == a
  {
    RawAnime(a.name, Some(a.genre), Some(a.kind), Number(a.rating), Number(a.members), Number(a.episodes))
  }

  /** A rating-log row survives `dropna()`, `to_numeric` on the rating and `dropna()` again. */
  predicate Keeps(row: RawRating) {
    && !row.user.Missing?
    && !row.anime.Missing?
    && ToNumber(row.rating).Some?
  }

  /** A rating-log row survives exactly when no cell is missing and its rating is a number or spells one. */
  lemma KeepsExactly(row: RawRating)
    ensures Keeps(row) <==>
      && !row.user.Missing? && !row.anime.Missing?
      && (row.rating.Number? || (row.rating.Str? && Numeric.IsDecimalLiteral(row.rating.text)))
  {
  }

  /** A surviving row keeps its user and anime cells and has its rating read as a number. */
  function Cleaned(row: RawRating): (x: Rating)
    requires Keeps(row)
    ensures x.user == row.user && x.anime == row.anime
    ensures row.rating.Number? ==> x.rating == row.rating.value
    ensures Some(x.rating) == ToNumber(row.rating)
  {
    Rating(row.user, row.anime, ToNumber(row.rating).value)
  }

  /** A clean rating written back as a raw row survives cleaning and comes back unchanged. */
  lemma CleanedRoundTrip(x: Rating)
    requires !x.user.Missing? && !x.anime.Missing?
    ensures var row := RawRating(x.user, x.anime, Number(x.rating));
      Keeps(row) && Cleaned(row) == x
  {
  }

  /** The rating-log clean-up: rows with a missing cell or a non-numeric rating are dropped. */
  function CleanRatings(rows: seq<RawRating>): (r: seq<Rating>)
    ensures |r| <= |rows|
    ensures forall k :: 0 <= k < |r| ==> !r[k].user.Missing? && !r[k].anime.Missing?
    ensures forall x :: x in r <==> exists i :: 0 <= i < |rows| && Keeps(rows[i]) && Cleaned(rows[i]) == x
  {
    if |rows| == 0 then []
    else
      var init := rows[..|rows| - 1];
      var last := rows[|rows| - 1];
      var r := CleanRatings(init) + (if Keeps(last) then [Cleaned(last)] else []);
      assert forall i :: 0 <= i < |init| ==> init[i] == rows[i];
      r
  }

  function Genres(catalogue: seq<Anime>): (g: seq<string>)
    ensures |g| == |catalogue|
    ensures forall i :: 0 <= i < |g| ==> g[i] == catalogue[i].genre
  {
    seq(|catalogue|, i requires 0 <= i < |catalogue| => catalogue[i].genre)
  }

  /** `preprocess_data`: clean every catalogue row, list the categories, clean the rating log. */
  function Preprocess(raw: seq<RawAnime>, ratings: Option<seq<RawRating>>): (p: Prepared)
    ensures |p.catalogue| == |raw|
    ensures forall i :: 0 <= i < |raw| ==> p.catalogue[i] == Normalise(raw[i])
    ensures forall i :: 0 <= i < |raw| ==> raw[i].genre.None? ==> p.catalogue[i].genre == Categories.Unknown
    ensures forall c :: c in p.categories <==>
      exists i :: 0 <= i < |raw| && raw[i].genre.Some? && raw[i].genre.value != Categories.Unknown
                  && c in Categories.Pieces(raw[i].genre.value)
    ensures Sorting.StrictlySorted(p.categories, Text.LexLess)
    ensures p.ratings.Some? <==> ratings.Some?
    ensures ratings.Some? ==> p.ratings.value == CleanRatings(ratings.value)
  {
    var catalogue := seq(|raw|, i requires 0 <= i < |raw| => Normalise(raw[i]));
    var categories := Categories.Extract(Genres(catalogue));
    var cleaned := match ratings
      case Some(rows) => Some(CleanRatings(rows))
      case None => None;
    Prepared(catalogue, categories, cleaned)
  }

  function RawCatalogue(catalogue: seq<Anime>): (raw: seq<RawAnime>)
    ensures |raw| == |catalogue|
    ensures forall i :: 0 <= i < |raw| ==> raw[i] == Raw(catalogue[i])
  {
    seq(|catalogue|, i requires 0 <= i < |catalogue| => Raw(catalogue[i]))
  }

  /** Preprocessing is idempotent: cleaning an already clean catalogue again changes nothing. */
  lemma PreprocessIdempotent(raw: seq<RawAnime>, ratings: Option<seq<RawRating>>)
    ensures var p := Preprocess(raw, ratings);
      Preprocess(RawCatalogue(p.catalogue), None).catalogue == p.catalogue
      && Preprocess(RawCatalogue(p.catalogue), None).categories == p.categories
  {
    var p := Preprocess(raw, ratings);
    var again := Preprocess(RawCatalogue(p.catalogue), None);
    assert again.catalogue == p.catalogue;
  }
}

=== FILE: categories.dfy ===
/**
 The category list: every genre value other than the placeholder "Unknown"
 is split on commas, each piece is stripped of surrounding whitespace, and
 the distinct pieces are listed in sorted order.
 */
module Categories {
  import Text
  import Sorting
  import Seqs

  /** The placeholder a missing text field is filled with. */
  const Unknown: string := "Unknown"

  /** `[g.strip() for g in genre.split(',')]`. */
  function Pieces(genre: string): (r: seq<string>)
    ensures |r| == |Text.Split(genre, ',')|
    ensures forall k :: 0 <= k < |r| ==> r[k] == Text.Strip(Text.Split(genre, ',')[k])
    ensures forall k :: 0 <= k < |r| ==> ',' !in r[k]
    ensures forall k :: 0 <= k < |r| ==>
      |r[k]| == 0 || (!Text.IsSpace(r[k][0]) && !Text.IsSpace(r[k][|r[k]| - 1]))
  {
    var parts := Text.Split(genre, ',');
    var r := seq(|parts|, k requires 0 <= k < |parts| => Text.Strip(parts[k]));
    forall k | 0 <= k < |r|
      ensures ',' !in r[k]
    {
      if ',' in r[k] {
        Text.StripKeepsCharacters(parts[k], ',');
      }
    }
    r
  }

  /** genre is a single tag: non-empty, without commas or surrounding whitespace. */
  predicate SingleTag(genre: string) {
    && |genre| > 0
    && ',' !in genre
    && !Text.IsSpace(genre[0])
    && !Text.IsSpace(genre[|genre| - 1])
  }

  /** A genre holding a single tag is split into that tag alone. */
  lemma SinglePiece(genre: string)
    requires SingleTag(genre)
    ensures Pieces(genre) == [genre]
  {
    Text.SplitJoin([genre], ',');
    assert Text.Join([genre], ',') == genre;
    assert Text.SkipSpaces(genre, 0) == 0;
    assert Text.SkipSpacesBack(genre, 0, |genre|) == |genre|;
    assert Text.Strip(genre) == genre[0..|genre|] == genre;
    var r := Pieces(genre);
    assert |r| == 1 && r[0] == Text.Strip(Text.Split(genre, ',')[0]);
  }

  /** The pieces one genre value contributes: none for the placeholder "Unknown". */
  function Contributed(genre: string): seq<string> {
    if genre != Unknown then Pieces(genre) else []
  }

  /** c is a category of the catalogue: a piece of some genre value other than "Unknown". */
  ghost predicate IsCategoryOf(c: string, genres: seq<string>) {
    exists k :: 0 <= k < |genres| && c in Contributed(genres[k])
  }

  /** The pieces of all genre values, in table order, repeats included (`all_genres`). */
  function AllPieces(genres: seq<string>): (r: seq<string>)
    ensures forall c :: c in r <==> IsCategoryOf(c, genres)
  {
    Seqs.FlatMap(genres, Contributed)
  }

  /** `sorted(list(set(all_genres)))`. */
  function Extract(genres: seq<string>): (r: seq<string>)
    ensures Sorting.StrictlySorted(r, Text.LexLess)
    ensures Sorting.Distinct(r)
    ensures forall c :: c in r <==> IsCategoryOf(c, genres)
  {
    Text.LexLessIsStrictTotalOrder();
    var r := Sorting.SortDistinct(AllPieces(genres), Text.LexLess);
    assert Sorting.Distinct(r) by {
      forall i, j | 0 <= i < j < |r|
        ensures r[i] != r[j]
      {
        assert Text.LexLess(r[i], r[j]);
        Text.LexLessIrreflexive(r[i]);
      }
    }
    r
  }

  /** The category list is the only sorted, repeat-free list of exactly the catalogue's categories. */
  lemma ExtractIsTheSortedSet(genres: seq<string>, cats: seq<string>)
    requires Sorting.StrictlySorted(cats, Text.LexLess)
    requires forall c :: c in cats <==> IsCategoryOf(c, genres)
    ensures cats == Extract(genres)
  {
    Text.LexLessIsStrictTotalOrder();
    Sorting.SortedUnique(cats, Extract(genres), Text.LexLess);
  }

  /** Two single-tag genre values, in sorted order, are the whole category list. */
  lemma ExtractTwoTags(a: string, b: string)
    requires SingleTag(a) && SingleTag(b) && a != Unknown && b != Unknown
    requires Text.LexLess(a, b)
    ensures Extract([a, b]) == [a, b]
  {
    SinglePiece(a);
    SinglePiece(b);
    var genres := [a, b];
    forall c
      ensures c in [a, b] <==> IsCategoryOf(c, genres)
    {
      assert Contributed(genres[0]) == [a];
      assert Contributed(genres[1]) == [b];
    }
    ExtractIsTheSortedSet(genres, [a, b]);
  }
}

=== FILE: category_query.dfy ===
/**
 The category query (`get_category_recommendations`): look the requested
 category up in the category list ignoring case, keep the catalogue rows
 whose genre matches it and whose rating is at least 5.0, rank them by
 rating and then members, both descending, and return the first `top_n`.
 */
module CategoryQuery {
  import opened Wrappers
  import opened Catalogue
  import Text
  import Seqs
  import Ranking
  import Sorting
  import Categories

  /** The columns the category query returns: name, genre, rating, type, episodes, members. */
  datatype CategoryPick = CategoryPick(
    name: Option<string>,
    genre: string,
    rating: real,
    kind: string,
    episodes: real,
    members: real)

  function Columns(a: Anime): CategoryPick {
    CategoryPick(a.name, a.genre, a.rating, a.kind, a.episodes, a.members)
  }

  /** The least rating a recommended row may have. */
  const MinRating: real := 5.0

  /** The first category in the list equal to the request ignoring case (`matching_categories[0]`). */
  function SelectCategory(categories: seq<string>, category: string): (r: Option<string>)
    ensures r.None? <==> forall k :: 0 <= k < |categories| ==> !Text.EqualsIgnoringCase(categories[k], category)
    ensures r.Some? ==> exists k :: (0 <= k < |categories| && categories[k] == r.value
      && Text.EqualsIgnoringCase(r.value, category)
      && (forall j :: 0 <= j < k ==> !Text.EqualsIgnoringCase(categories[j], category)))
  {
    match Seqs.FirstWhere(categories, c => Text.EqualsIgnoringCase(c, category))
    case Some(k) => Some(categories[k])
    case None => None
  }

  /** genre lists category among its comma-separated tags, ignoring case. */
  predicate HasTag(genre: string, category: string) {
    var tags := Categories.Pieces(genre);
    exists k :: 0 <= k < |tags| && Text.EqualsIgnoringCase(tags[k], category)
  }

  /**
   How a row's genre is matched against the selected category: as written, a
   case-insensitive substring test (`str.contains(..., case=False)`); with
   byTag, membership among the row's genre tags.
   */
  predicate GenreMatches(genre: string, selected: string, byTag: bool) {
    if byTag then HasTag(genre, selected) else Text.ContainsIgnoringCase(genre, selected)
  }

  /** A row passes both filters: its genre matches and its rating is at least 5.0. */
  predicate PickEligible(a: CategoryPick, selected: string, byTag: bool) {
    GenreMatches(a.genre, selected, byTag) && a.rating >= MinRating
  }

  predicate Eligible(a: Anime, selected: string, byTag: bool) {
    PickEligible(Columns(a), selected, byTag)
  }

  /** The positions of the rows whose genre matches (`category_anime`). */
  function MatchingPositions(catalogue: seq<Anime>, selected: string, byTag: bool): (r: seq<nat>)
    ensures forall k :: 0 <= k < |r| ==> r[k] < |catalogue| && GenreMatches(catalogue[r[k]].genre, selected, byTag)
    ensures forall i :: 0 <= i < |catalogue| && GenreMatches(catalogue[i].genre, selected, byTag) ==> i in r
  {
    Seqs.Positions(catalogue, (a: Anime) => GenreMatches(a.genre, selected, byTag))
  }

  /** The positions of the rows that also have a rating of at least 5.0, in table order. */
  function EligiblePositions(catalogue: seq<Anime>, selected: string, byTag: bool): (r: seq<nat>)
    ensures Seqs.StrictlyIncreasing(r)
    ensures forall k :: 0 <= k < |r| ==> r[k] < |catalogue| && Eligible(catalogue[r[k]], selected, byTag)
    ensures forall i :: 0 <= i < |catalogue| && Eligible(catalogue[i], selected, byTag) ==> i in r
    ensures (forall i :: 0 <= i < |catalogue| ==> !Eligible(catalogue[i], selected, byTag)) ==> r == []
  {
    Seqs.Positions(catalogue, a => Eligible(a, selected, byTag))
  }

  /** The sort key of every row: rating, then members. */
  function Keys(catalogue: seq<Anime>): (keys: seq<Ranking.Key>)
    ensures |keys| == |catalogue|
    ensures forall i :: 0 <= i < |keys| ==> keys[i] == KeyOf(Columns(catalogue[i]))
  {
    seq(|catalogue|, i requires 0 <= i < |catalogue| => KeyOf(Columns(catalogue[i])))
  }

  /** The sort key of a returned row: rating, then members. */
  function KeyOf(a: CategoryPick): Ranking.Key {
    Ranking.Key(a.rating, a.members)
  }

  /** Row a comes strictly before row b by rating and members alone. */
  predicate RanksHigher(a: CategoryPick, b: CategoryPick) {
    Ranking.Above(KeyOf(a), KeyOf(b))
  }

  /** a may come before b: b does not rank strictly higher. */
  predicate InRankOrder(a: CategoryPick, b: CategoryPick) {
    !RanksHigher(b, a)
  }

  /**
   The eligible rows in rank order (`sort_values(['rating', 'members'],
   ascending=[False, False])`), as table positions; rows with equal rating
   and members stay in table order.
   */
  function RankedPositions(catalogue: seq<Anime>, selected: string, byTag: bool): (order: seq<nat>)
    ensures Ranking.IsRankingOf(Keys(catalogue), EligiblePositions(catalogue, selected, byTag), order)
    ensures |order| == |EligiblePositions(catalogue, selected, byTag)|
    ensures forall p :: 0 <= p < |order| ==>
      order[p] < |catalogue| && Eligible(catalogue[order[p]], selected, byTag)
  {
    var eligible := EligiblePositions(catalogue, selected, byTag);
    assert Sorting.Distinct(eligible);
    var order := Ranking.RankOf(Keys(catalogue), eligible);
    forall p | 0 <= p < |order|
      ensures Eligible(catalogue[order[p]], selected, byTag)
    {
      assert order[p] in eligible;
    }
    order
  }

  /** The eligible rows in rank order, with the returned columns. */
  function RankedPicks(catalogue: seq<Anime>, selected: string, byTag: bool): (ranked: seq<CategoryPick>)
    ensures var order := RankedPositions(catalogue, selected, byTag);
      && |ranked| == |order|
      && (forall p :: 0 <= p < |ranked| ==> ranked[p] == Columns(catalogue[order[p]]))
    ensures forall p :: 0 <= p < |ranked| ==> PickEligible(ranked[p], selected, byTag)
    ensures forall p, q :: 0 <= p < q < |ranked| ==> InRankOrder(ranked[p], ranked[q])
  {
    var order := RankedPositions(catalogue, selected, byTag);
    var ranked := seq(|order|, p requires 0 <= p < |order| => Columns(catalogue[order[p]]));
    forall p | 0 <= p < |ranked|
      ensures order[p] < |catalogue| && ranked[p] == Columns(catalogue[order[p]])
      ensures PickEligible(ranked[p], selected, byTag)
    {
      assert Eligible(catalogue[order[p]], selected, byTag);
    }
    RankedInOrder(catalogue, EligiblePositions(catalogue, selected, byTag), order, ranked);
    ranked
  }

  lemma RankedInOrder(catalogue: seq<Anime>, members: seq<nat>, order: seq<nat>, ranked: seq<CategoryPick>)
    requires Ranking.IsRankingOf(Keys(catalogue), members, order)
    requires |ranked| == |order|
    requires forall p :: 0 <= p < |order| ==> order[p] < |catalogue| && ranked[p] == Columns(catalogue[order[p]])
    ensures forall p, q :: 0 <= p < q < |ranked| ==> InRankOrder(ranked[p], ranked[q])
  {
    var keys := Keys(catalogue);
    forall p, q | 0 <= p < q < |ranked|
      ensures InRankOrder(ranked[p], ranked[q])
    {
      assert Ranking.Precedes(keys, order[p], order[q]);
    }
  }

  /** No eligible row that ranks strictly higher than a returned row is left out of the first n. */
  lemma PrefixIsComplete(catalogue: seq<Anime>, selected: string, byTag: bool, n: nat, i: nat, p: nat)
    requires n <= |RankedPicks(catalogue, selected, byTag)|
    requires i < |catalogue| && Eligible(catalogue[i], selected, byTag)
    requires p < n && RanksHigher(Columns(catalogue[i]), RankedPicks(catalogue, selected, byTag)[p])
    ensures Columns(catalogue[i]) in RankedPicks(catalogue, selected, byTag)[..n]
  {
    var order := RankedPositions(catalogue, selected, byTag);
    var ranked := RankedPicks(catalogue, selected, byTag);
    var keys := Keys(catalogue);
    assert i in order;
    var q :| 0 <= q < |order| && order[q] == i;
    Ranking.HigherKeyFirst(keys, EligiblePositions(catalogue, selected, byTag), order, p, q);
    assert ranked[..n][q] == Columns(catalogue[i]);
  }

  /** The ranked rows cut to the first topN (`head(top_n)`). */
  function TopPicks(catalogue: seq<Anime>, selected: string, byTag: bool, topN: int): (r: seq<CategoryPick>)
    ensures var ranked := RankedPicks(catalogue, selected, byTag);
      && |r| <= |ranked|
      && r == ranked[..|r|]
      && (topN >= 0 ==> |r| == if topN < |ranked| then topN else |ranked|)
      && (topN < 0 ==> |r| == if |ranked| + topN < 0 then 0 else |ranked| + topN)
    ensures forall i, p ::
      (0 <= i < |catalogue| && 0 <= p < |r| && Eligible(catalogue[i], selected, byTag)
       && RanksHigher(Columns(catalogue[i]), r[p])) ==> Columns(catalogue[i]) in r
  {
    var ranked := RankedPicks(catalogue, selected, byTag);
    var r := Seqs.Head(ranked, topN);
    forall i, p | 0 <= i < |catalogue| && 0 <= p < |r| && Eligible(catalogue[i], selected, byTag)
      && RanksHigher(Columns(catalogue[i]), r[p])
      ensures Columns(catalogue[i]) in r
    {
      PrefixIsComplete(catalogue, selected, byTag, |r|, i, p);
    }
    r
  }

  /**
   picks could be what `head(topN)` keeps of the ranked rows for selected:
   eligible rows, in rank order, min(topN, n) of them for topN >= 0 and
   max(n + topN, 0) for topN < 0, where n rows are eligible.
   */
  predicate RankedHead(picks: seq<CategoryPick>, catalogue: seq<Anime>, selected: string, byTag: bool, topN: int) {
    var n := |EligiblePositions(catalogue, selected, byTag)|;
    && (forall p :: 0 <= p < |picks| ==> PickEligible(picks[p], selected, byTag))
    && (forall p, q :: 0 <= p < q < |picks| ==> InRankOrder(picks[p], picks[q]))
    && (topN >= 0 ==> |picks| == Seqs.Min(topN, n))
    && (topN < 0 ==> |picks| == Seqs.Max(n + topN, 0))
  }

  /** The top picks are eligible rows, in rank order, as many as head(topN) keeps of them. */
  lemma TopPicksFacts(catalogue: seq<Anime>, selected: string, byTag: bool, topN: int)
    ensures RankedHead(TopPicks(catalogue, selected, byTag, topN), catalogue, selected, byTag, topN)
  {
    var r := TopPicks(catalogue, selected, byTag, topN);
    var ranked := RankedPicks(catalogue, selected, byTag);
    assert |ranked| == |EligiblePositions(catalogue, selected, byTag)|;
    forall p | 0 <= p < |r|
      ensures PickEligible(r[p], selected, byTag)
    {
      assert r[p] == ranked[p];
    }
    forall p, q | 0 <= p < q < |r|
      ensures InRankOrder(r[p], r[q])
    {
      assert r[p] == ranked[p] && r[q] == ranked[q];
    }
  }

  /** Every pick has a name; the display step raises on the first one that does not. */
  predicate AllNamed(picks: seq<CategoryPick>) {
    forall p :: 0 <= p < |picks| ==> picks[p].name.Some?
  }

  /**
   get_category_recommendations, with the genre test chosen by byTag.  The
   picks are displayed before they are returned, and the display raises on
   a pick without a name.
   */
  function Recommend(categories: seq<string>, catalogue: seq<Anime>, category: string, topN: int, byTag: bool)
    : (r: Result<seq<CategoryPick>, QueryError>)
    ensures r == Err(CategoriesNotLoaded) <==> |categories| == 0
    ensures |categories| > 0 ==>
      (r == Err(CategoryNotFound(category)) <==>
       forall k :: 0 <= k < |categories| ==> !Text.EqualsIgnoringCase(categories[k], category))
    ensures r.Ok? <==> var sel := SelectCategory(categories, category);
      && |categories| > 0 && sel.Some?
      && (exists i :: 0 <= i < |catalogue| && GenreMatches(catalogue[i].genre, sel.value, byTag))
      && AllNamed(TopPicks(catalogue, sel.value, byTag, topN))
    ensures var sel := SelectCategory(categories, category);
      |categories| > 0 && sel.Some? ==>
        && (r == Err(NoAnimeForCategory(sel.value)) <==>
            forall i :: 0 <= i < |catalogue| ==> !GenreMatches(catalogue[i].genre, sel.value, byTag))
        && (r.Ok? ==> r.value == TopPicks(catalogue, sel.value, byTag, topN))
        && (r == Err(UnnamedRecommendation) <==>
            (exists i :: 0 <= i < |catalogue| && GenreMatches(catalogue[i].genre, sel.value, byTag))
            && !AllNamed(TopPicks(catalogue, sel.value, byTag, topN)))
    ensures r.Ok? ==> |categories| > 0 && SelectCategory(categories, category).Some? && AllNamed(r.value)
    ensures r.Err? ==>
      || r.error == CategoriesNotLoaded
      || r.error == CategoryNotFound(category)
      || (SelectCategory(categories, category).Some? && r.error == NoAnimeForCategory(SelectCategory(categories, category).value))
      || r.error == UnnamedRecommendation
  {
    if |categories| == 0 then Err(CategoriesNotLoaded)
    else
      match SelectCategory(categories, category)
      case None => Err(CategoryNotFound(category))
      case Some(selected) =>
        var matching := MatchingPositions(catalogue, selected, byTag);
        if |matching| == 0 then
          Err(NoAnimeForCategory(selected))
        else
          assert matching[0] < |catalogue|;
          var picks := TopPicks(catalogue, selected, byTag, topN);
          if AllNamed(picks) then Ok(picks) else Err(UnnamedRecommendation)
  }

  /** The category query as written: the genre filter is a case-insensitive substring test. */
  function CategoryRecommendations(categories: seq<string>, catalogue: seq<Anime>, category: string, topN: int)
    : (r: Result<seq<CategoryPick>, QueryError>)
    ensures r == Err(CategoriesNotLoaded) <==> |categories| == 0
    ensures |categories| > 0 ==>
      (r == Err(CategoryNotFound(category)) <==>
       forall k :: 0 <= k < |categories| ==> !Text.EqualsIgnoringCase(categories[k], category))
    ensures var sel := SelectCategory(categories, category);
      |categories| > 0 && sel.Some? ==>
        (r == Err(NoAnimeForCategory(sel.value)) <==>
         forall i :: 0 <= i < |catalogue| ==> !Text.ContainsIgnoringCase(catalogue[i].genre, sel.value))
    ensures r.Ok? ==> var sel := SelectCategory(categories, category).value;
      && Text.EqualsIgnoringCase(sel, category)
      && r.value == TopPicks(catalogue, sel, false, topN)
      && RankedHead(r.value, catalogue, sel, false, topN)
      && AllNamed(r.value)
    ensures var sel := SelectCategory(categories, category);
      |categories| > 0 && sel.Some? ==>
        (r == Err(UnnamedRecommendation) <==>
         (exists i :: 0 <= i < |catalogue| && Text.ContainsIgnoringCase(catalogue[i].genre, sel.value))
         && !AllNamed(TopPicks(catalogue, sel.value, false, topN)))
    ensures r.Ok? <==> var sel := SelectCategory(categories, category);
      && |categories| > 0 && sel.Some?
      && (exists i :: 0 <= i < |catalogue| && Text.ContainsIgnoringCase(catalogue[i].genre, sel.value))
      && AllNamed(TopPicks(catalogue, sel.value, false, topN))
    ensures r.Err? ==>
      || r.error == CategoriesNotLoaded
      || r.error == CategoryNotFound(category)
      || (SelectCategory(categories, category).Some? && r.error == NoAnimeForCategory(SelectCategory(categories, category).value))
      || r.error == UnnamedRecommendation
  {
    var r := Recommend(categories, catalogue, category, topN, false);
    if r.Ok? then
      TopPicksFacts(catalogue, SelectCategory(categories, category).value, false, topN);
      r
    else r
  }

  /** The category query as evidently intended: a row is kept only when the category is one of its genre tags. */
  function CategoryRecommendationsByTag(categories: seq<string>, catalogue: seq<Anime>, category: string, topN: int)
    : (r: Result<seq<CategoryPick>, QueryError>)
    ensures r == Err(CategoriesNotLoaded) <==> |categories| == 0
    ensures |categories| > 0 ==>
      (r == Err(CategoryNotFound(category)) <==>
       forall k :: 0 <= k < |categories| ==> !Text.EqualsIgnoringCase(categories[k], category))
    ensures var sel := SelectCategory(categories, category);
      |categories| > 0 && sel.Some? ==>
        (r == Err(NoAnimeForCategory(sel.value)) <==>
         forall i :: 0 <= i < |catalogue| ==> !HasTag(catalogue[i].genre, sel.value))
    ensures r.Ok? ==> var sel := SelectCategory(categories, category).value;
      && Text.EqualsIgnoringCase(sel, category)
      && r.value == TopPicks(catalogue, sel, true, topN)
      && RankedHead(r.value, catalogue, sel, true, topN)
      && AllNamed(r.value)
    ensures var sel := SelectCategory(categories, category);
      |categories| > 0 && sel.Some? ==>
        (r == Err(UnnamedRecommendation) <==>
         (exists i :: 0 <= i < |catalogue| && HasTag(catalogue[i].genre, sel.value))
         && !AllNamed(TopPicks(catalogue, sel.value, true, topN)))
    ensures r.Ok? <==> var sel := SelectCategory(categories, category);
      && |categories| > 0 && sel.Some?
      && (exists i :: 0 <= i < |catalogue| && HasTag(catalogue[i].genre, sel.value))
      && AllNamed(TopPicks(catalogue, sel.value, true, topN))
    ensures r.Err? ==>
      || r.error == CategoriesNotLoaded
      || r.error == CategoryNotFound(category)
      || (SelectCategory(categories, category).Some? && r.error == NoAnimeForCategory(SelectCategory(categories, category).value))
      || r.error == UnnamedRecommendation
  {
    var r := Recommend(categories, catalogue, category, topN, true);
    if r.Ok? then
      TopPicksFacts(catalogue, SelectCategory(categories, category).value, true, topN);
      r
    else r
  }

  /** A tag is matched as a substring of the genre text whenever the genre starts with it. */
  lemma TagPrefixMatches(tag: string, rest: string)
    ensures Text.ContainsIgnoringCase(tag + rest, tag)
  {
    var hay := Text.Lower(tag + rest);
    var needle := Text.Lower(tag);
    assert hay[0..|needle|] == needle;
    assert Text.OccursAt(hay, needle, 0);
  }

  /**
   A two-row catalogue: the first row is tagged short and rated below 5.0,
   the second is tagged only long, rated 7.0.
   */
  function TagCatalogue(short: string, long: string): seq<Anime> {
    [ Anime(Some("First"), short, "TV", 4.0, 10.0, 12.0, short + " TV"),
      Anime(Some("Second"), long, "TV", 7.0, 100.0, 10.0, long + " TV") ]
  }

  /** The only candidate in an increasing sequence that holds nothing else is the whole sequence. */
  lemma OnlyCandidate(r: seq<nat>, i: nat)
    requires Seqs.StrictlyIncreasing(r)
    requires i in r
    requires forall k :: 0 <= k < |r| ==> r[k] == i
    ensures r == [i]
  {
    Seqs.IncreasingWithin(r, i, i + 1);
  }

  /** A longer tag that starts with a shorter one contains it, but does not carry it as a tag. */
  lemma LongerTagContainsShorter(short: string, rest: string)
    requires |rest| > 0 && Categories.SingleTag(short + rest)
    ensures Text.ContainsIgnoringCase(short + rest, short)
    ensures !HasTag(short + rest, short)
  {
    var long := short + rest;
    TagPrefixMatches(short, rest);
    Categories.SinglePiece(long);
    assert |Text.Lower(long)| != |Text.Lower(short)|;
  }

  lemma SubstringKeepsLonger(short: string, long: string)
    requires Text.ContainsIgnoringCase(long, short)
    ensures RankedPositions(TagCatalogue(short, long), short, false) == [1]
  {
    var catalogue := TagCatalogue(short, long);
    var eligible := EligiblePositions(catalogue, short, false);
    assert Eligible(catalogue[1], short, false);
    assert !Eligible(catalogue[0], short, false);
    OnlyCandidate(eligible, 1);
    Ranking.RankingUnique(Keys(catalogue), eligible, [1]);
  }

  lemma ByTagKeepsNone(short: string, long: string)
    requires !HasTag(long, short)
    ensures RankedPositions(TagCatalogue(short, long), short, true) == []
  {
    var catalogue := TagCatalogue(short, long);
    assert !Eligible(catalogue[1], short, true);
    assert !Eligible(catalogue[0], short, true);
  }

  /** When topN covers every eligible row, the top picks are the whole ranking. */
  lemma WholeRankingFits(catalogue: seq<Anime>, selected: string, byTag: bool, topN: int)
    requires |RankedPicks(catalogue, selected, byTag)| <= topN
    ensures TopPicks(catalogue, selected, byTag, topN) == RankedPicks(catalogue, selected, byTag)
  {
  }

  lemma SubstringQueryOnTagCatalogue(short: string, rest: string)
    requires |rest| > 0 && Categories.SingleTag(short + rest)
    ensures var catalogue := TagCatalogue(short, short + rest);
      Recommend([short, short + rest], catalogue, short, 10, false) == Ok([Columns(catalogue[1])])
  {
    var long := short + rest;
    var catalogue := TagCatalogue(short, long);
    LongerTagContainsShorter(short, rest);
    assert SelectCategory([short, long], short) == Some(short);
    assert 1 in MatchingPositions(catalogue, short, false);
    SubstringPicksOnTagCatalogue(short, long);
    var picks := TopPicks(catalogue, short, false, 10);
    assert AllNamed(picks);
    var r := Recommend([short, long], catalogue, short, 10, false);
    assert r == Ok(picks);
  }

  lemma SubstringPicksOnTagCatalogue(short: string, long: string)
    requires Text.ContainsIgnoringCase(long, short)
    ensures var catalogue := TagCatalogue(short, long);
      TopPicks(catalogue, short, false, 10) == [Columns(catalogue[1])]
  {
    var catalogue := TagCatalogue(short, long);
    SubstringKeepsLonger(short, long);
    var ranked := RankedPicks(catalogue, short, false);
    assert |ranked| == 1 && ranked[0] == Columns(catalogue[1]);
    WholeRankingFits(catalogue, short, false, 10);
    assert ranked == [Columns(catalogue[1])];
  }

  lemma TagQueryOnTagCatalogue(short: string, rest: string)
    requires |rest| > 0 && Categories.SingleTag(short) && Categories.SingleTag(short + rest)
    ensures var catalogue := TagCatalogue(short, short + rest);
      Recommend([short, short + rest], catalogue, short, 10, true) == Ok([])
  {
    var long := short + rest;
    var catalogue := TagCatalogue(short, long);
    LongerTagContainsShorter(short, rest);
    assert SelectCategory([short, long], short) == Some(short);
    Categories.SinglePiece(short);
    assert HasTag(short, short) by {
      assert Categories.Pieces(short)[0] == short;
    }
    assert 0 in MatchingPositions(catalogue, short, true);
    ByTagKeepsNone(short, long);
    assert RankedPicks(catalogue, short, true) == [];
  }

  /**
   Asking for short returns the row tagged only short + rest: the category is
   a substring of that genre although it is not one of its tags.  The
   tag-based query returns no rows, the only row tagged short being rated
   below 5.0.
   */
  lemma SubstringMatchesLongerTag(short: string, rest: string)
    requires |rest| > 0 && Categories.SingleTag(short) && Categories.SingleTag(short + rest)
    ensures var catalogue := TagCatalogue(short, short + rest);
      CategoryRecommendations([short, short + rest], catalogue, short, 10) == Ok([Columns(catalogue[1])])
    ensures var catalogue := TagCatalogue(short, short + rest);
      CategoryRecommendationsByTag([short, short + rest], catalogue, short, 10) == Ok([])
  {
    SubstringQueryOnTagCatalogue(short, rest);
    TagQueryOnTagCatalogue(short, rest);
  }

  lemma ShounenGenres()
    ensures Genres(TagCatalogue("Shounen", "Shounen Ai")) == ["Shounen", "Shounen Ai"]
  {
  }

  lemma ShounenTagsSorted()
    ensures Categories.Extract(["Shounen", "Shounen Ai"]) == ["Shounen", "Shounen Ai"]
  {
    assert "Shounen"[0] != Categories.Unknown[0];
    Text.LexLessProperPrefix("Shounen", " Ai");
    assert "Shounen" + " Ai" == "Shounen Ai";
    Categories.ExtractTwoTags("Shounen", "Shounen Ai");
  }

  /** The category list of the two-row catalogue tagged "Shounen" and "Shounen Ai" is exactly those two tags. */
  lemma ShounenCategoriesAreExtracted()
    ensures Categories.Extract(Genres(TagCatalogue("Shounen", "Shounen Ai"))) == ["Shounen", "Shounen Ai"]
  {
    ShounenGenres();
    ShounenTagsSorted();
  }

  /** The discrepancy on the tags "Shounen" and "Shounen Ai". */
  lemma ShounenMatchesShounenAi()
    ensures var catalogue := TagCatalogue("Shounen", "Shounen Ai");
      && CategoryRecommendations(["Shounen", "Shounen Ai"], catalogue, "Shounen", 10) == Ok([Columns(catalogue[1])])
      && CategoryRecommendationsByTag(["Shounen", "Shounen Ai"], catalogue, "Shounen", 10) == Ok([])
  {
    assert Categories.SingleTag("Shounen");
    assert Categories.SingleTag("Shounen Ai");
    assert "Shounen" + " Ai" == "Shounen Ai";
    SubstringMatchesLongerTag("Shounen", " Ai");
  }

}

=== FILE: content_query.dfy ===
/**
 The content query (`get_content_recommendations`) around the similarity
 model: resolve a title to the first catalogue row whose name contains it,
 rank that row's similarity scores in descending order (a stable sort),
 skip the top-ranked entry and return the next `top_n` rows with their
 scores.  The similarity matrix itself is an input: one row of scores per
 catalogue row, or None before the model is built.
 */
module ContentQuery {
  import opened Wrappers
  import opened Catalogue
  import Text
  import Seqs
  import Ranking
  import Sorting

  /** A returned row: its catalogue position (the index label kept by `iloc`), its columns and its score. */
  datatype ContentPick = ContentPick(
    pos: nat,
    name: Option<string>,
    genre: string,
    rating: real,
    kind: string,
    score: real)

  /** A catalogue position with its similarity to the seed. */
  datatype Scored = Scored(pos: nat, score: real)

  /** The similarity matrix has one row per catalogue row and one column per catalogue row. */
  predicate IsSquare(sim: seq<seq<real>>, n: nat) {
    |sim| == n && forall i :: 0 <= i < n ==> |sim[i]| == n
  }

  /** The row's name contains the title, ignoring case; a row without a name never matches (`na=False`). */
  predicate TitleMatches(a: Anime, title: string) {
    a.name.Some? && Text.ContainsIgnoringCase(a.name.value, title)
  }

  /** The seed row: the first row, in catalogue order, whose name contains the title. */
  function Resolve(catalogue: seq<Anime>, title: string): (r: Option<nat>)
    ensures r.Some? ==> r.value < |catalogue| && TitleMatches(catalogue[r.value], title)
    ensures r.Some? ==> forall j :: 0 <= j < r.value ==> !TitleMatches(catalogue[j], title)
    ensures r.None? <==> forall j :: 0 <= j < |catalogue| ==> !TitleMatches(catalogue[j], title)
  {
    Seqs.FirstWhere(catalogue, (a: Anime) => TitleMatches(a, title))
  }

  function ScoreKeys(scores: seq<real>): (keys: seq<Ranking.Key>)
    ensures |keys| == |scores|
    ensures forall i :: 0 <= i < |keys| ==> keys[i] == Ranking.Key(scores[i], 0.0)
  {
    seq(|scores|, i requires 0 <= i < |scores| => Ranking.Key(scores[i], 0.0))
  }

  /** `sorted(enumerate(scores), key=lambda x: x[1], reverse=True)`, as positions. */
  function Ranked(scores: seq<real>): (order: seq<nat>)
    ensures Ranking.IsRankingOf(ScoreKeys(scores), Seqs.AllPositions(|scores|), order)
    ensures |order| == |scores|
  {
    var all := Seqs.AllPositions(|scores|);
    assert Sorting.Distinct(all);
    Ranking.RankOf(ScoreKeys(scores), all)
  }

  /** Scored entries listed by non-increasing score, ties in catalogue order. */
  predicate ScoresInRankOrder(r: seq<Scored>) {
    forall p, q :: 0 <= p < q < |r| ==>
      r[p].score > r[q].score || (r[p].score == r[q].score && r[p].pos < r[q].pos)
  }

  lemma RankedScoresInOrder(scores: seq<real>, members: seq<nat>, order: seq<nat>, r: seq<Scored>, from: nat)
    requires Ranking.IsRankingOf(ScoreKeys(scores), members, order)
    requires |r| == 0 || from + |r| <= |order|
    requires forall p :: 0 <= p < |r| ==> r[p].pos == order[from + p] && r[p].score == scores[r[p].pos]
    ensures ScoresInRankOrder(r)
  {
    var keys := ScoreKeys(scores);
    forall p, q | 0 <= p < q < |r|
      ensures r[p].score > r[q].score || (r[p].score == r[q].score && r[p].pos < r[q].pos)
    {
      assert Ranking.Precedes(keys, order[from + p], order[from + q]);
    }
  }

  /**
   The selection as written: `sim_scores[1:top_n+1]`, paired with the scores
   `[sim_scores[i+1][1] for i in range(min(top_n, len(anime_indices)))]`.
   The two lists have different lengths when top_n <= -2 leaves a non-empty
   slice, and assigning the shorter one as a column raises an error.
   */
  function SelectSimilar(scores: seq<real>, topN: int): (r: Result<seq<Scored>, QueryError>)
    ensures r.Err? <==> topN <= -2 && |scores| + topN > 0
    ensures topN >= 0 ==> r.Ok? && |r.value| == (if |scores| == 0 then 0 else Seqs.Min(topN, |scores| - 1))
    ensures r.Ok? && topN < 0 ==> |r.value| == 0
    ensures r.Ok? ==> |r.value| <= |scores| && (|r.value| > 0 ==> |r.value| < |scores|)
    ensures r.Ok? ==> forall p :: 0 <= p < |r.value| ==>
      && r.value[p].pos == Ranked(scores)[p + 1]
      && r.value[p].score == scores[r.value[p].pos]
    ensures r.Ok? ==> ScoresInRankOrder(r.value)
    ensures r.Ok? && |scores| > 0 ==> forall p :: 0 <= p < |r.value| ==> r.value[p].pos != Ranked(scores)[0]
  {
    var order := Ranked(scores);
    var taken := Seqs.Slice(order, 1, topN + 1);
    var count := Seqs.Min(topN, |taken|);
    var scoreCount := if count < 0 then 0 else count;
    if scoreCount != |taken| then
      Err(ScoreCountMismatch(|taken|, scoreCount))
    else
      assert |taken| > 0 ==> Seqs.ClampIndex(1, |order|) == 1;
      assert forall p :: 0 <= p < |taken| ==> taken[p] == order[1 + p];
      var r := seq(|taken|, p requires 0 <= p < |taken| => Scored(taken[p], scores[order[p + 1]]));
      RankedScoresInOrder(scores, Seqs.AllPositions(|scores|), order, r, 1);
      forall p | 0 <= p < |r|
        ensures r[p].pos != order[0]
      {
        assert Ranking.Precedes(ScoreKeys(scores), order[0], order[1 + p]);
      }
      Ok(r)
  }

  function PickOf(catalogue: seq<Anime>, s: Scored): ContentPick
    requires s.pos < |catalogue|
  {
    var a := catalogue[s.pos];
    ContentPick(s.pos, a.name, a.genre, a.rating, a.kind, s.score)
  }

  /** get_content_recommendations as written. */
  function ContentRecommendations(catalogue: seq<Anime>, sim: Option<seq<seq<real>>>, title: string, topN: int)
    : (r: Result<seq<ContentPick>, QueryError>)
    requires sim.Some? ==> IsSquare(sim.value, |catalogue|)
    ensures r == Err(ContentModelNotBuilt) <==> sim.None?
    ensures sim.Some? ==>
      (r == Err(AnimeNotFound(title)) <==> forall j :: 0 <= j < |catalogue| ==> !TitleMatches(catalogue[j], title))
    ensures sim.Some? && Resolve(catalogue, title).Some? ==>
      var chosen := SelectSimilar(sim.value[Resolve(catalogue, title).value], topN);
      && (r.Ok? <==> chosen.Ok?)
      && (r.Err? ==> r.error == chosen.error && r.error.ScoreCountMismatch?)
    ensures sim.Some? && Resolve(catalogue, title).Some? && topN >= 0 ==>
      r.Ok? && |r.value| == Seqs.Min(topN, |catalogue| - 1)
    ensures r.Err? ==>
      r.error == ContentModelNotBuilt || r.error == AnimeNotFound(title) || r.error.ScoreCountMismatch?
    ensures r.Ok? ==> sim.Some? && Resolve(catalogue, title).Some?
    ensures r.Ok? ==>
      var seed := Resolve(catalogue, title).value;
      var chosen := SelectSimilar(sim.value[seed], topN);
      && chosen.Ok?
      && |r.value| == |chosen.value|
      && forall p :: 0 <= p < |r.value| ==>
           chosen.value[p].pos < |catalogue| && r.value[p] == PickOf(catalogue, chosen.value[p])
  {
    if sim.None? then Err(ContentModelNotBuilt)
    else
      match Resolve(catalogue, title)
      case None => Err(AnimeNotFound(title))
      case Some(seed) =>
        match SelectSimilar(sim.value[seed], topN)
        case Err(e) => Err(e)
        case Ok(chosen) =>
          Ok(PicksOf(catalogue, chosen))
  }

  /** Every position of an n-row table except seed, in table order. */
  function Others(n: nat, seed: nat): (r: seq<nat>)
    ensures Seqs.StrictlyIncreasing(r)
    ensures forall k :: 0 <= k < |r| ==> r[k] < n && r[k] != seed
    ensures forall i :: 0 <= i < n && i != seed ==> i in r
    ensures |r| == if seed < n then n - 1 else n
  {
    if seed < n then
      var r := seq(n - 1, k requires 0 <= k < n - 1 => if k < seed then k else k + 1);
      forall i | 0 <= i < n && i != seed
        ensures i in r
      {
        if i < seed { assert r[i] == i; } else { assert r[i - 1] == i; }
      }
      r
    else
      var r := Seqs.AllPositions(n);
      forall i | 0 <= i < n
        ensures i in r
      {
        assert r[i] == i;
      }
      r
  }

  /** The rows other than the seed, ranked by their similarity to it. */
  function RankedOthers(scores: seq<real>, seed: nat): (order: seq<nat>)
    ensures Ranking.IsRankingOf(ScoreKeys(scores), Others(|scores|, seed), order)
    ensures |order| == |Others(|scores|, seed)|
    ensures forall p :: 0 <= p < |order| ==> order[p] < |scores| && order[p] != seed
  {
    var others := Others(|scores|, seed);
    assert Sorting.Distinct(others);
    var order := Ranking.RankOf(ScoreKeys(scores), others);
    forall p | 0 <= p < |order|
      ensures order[p] != seed
    {
      assert order[p] in others;
    }
    order
  }

  /** A row other than the seed that scores higher than a returned row is among the first n. */
  lemma OthersPrefixComplete(scores: seq<real>, seed: nat, n: nat, i: nat, p: nat)
    requires n <= |RankedOthers(scores, seed)|
    requires i < |scores| && i != seed
    requires p < n && scores[i] > scores[RankedOthers(scores, seed)[p]]
    ensures exists q :: 0 <= q < n && RankedOthers(scores, seed)[q] == i
  {
    var order := RankedOthers(scores, seed);
    assert i in order;
    var q :| 0 <= q < |order| && order[q] == i;
    Ranking.HigherKeyFirst(ScoreKeys(scores), Others(|scores|, seed), order, p, q);
  }

  /**
   The selection as evidently intended: the seed row itself is left out and
   the topN rows most similar to it among the others are returned, none when
   topN is not positive.
   */
  function SelectSimilarExcludingSeed(scores: seq<real>, seed: nat, topN: int): (r: seq<Scored>)
    ensures forall p :: 0 <= p < |r| ==>
      r[p].pos < |scores| && r[p].pos != seed && r[p].score == scores[r[p].pos]
    ensures ScoresInRankOrder(r)
    ensures var order := RankedOthers(scores, seed);
      |r| <= |order| && forall p :: 0 <= p < |r| ==> r[p].pos == order[p]
    ensures |r| == if topN <= 0 then 0 else Seqs.Min(topN, |Others(|scores|, seed)|)
  {
    var order := RankedOthers(scores, seed);
    var n := if topN <= 0 then 0 else Seqs.Min(topN, |order|);
    var r := seq(n, p requires 0 <= p < n => Scored(order[p], scores[order[p]]));
    RankedScoresInOrder(scores, Others(|scores|, seed), order, r, 0);
    r
  }

  /** The corrected selection leaves out no row other than the seed that scores higher than a returned row. */
  lemma ExcludingSeedIsComplete(scores: seq<real>, seed: nat, topN: int, i: nat, p: nat)
    requires i < |scores| && i != seed
    requires p < |SelectSimilarExcludingSeed(scores, seed, topN)|
    requires scores[i] > SelectSimilarExcludingSeed(scores, seed, topN)[p].score
    ensures exists q :: (0 <= q < |SelectSimilarExcludingSeed(scores, seed, topN)|
      && SelectSimilarExcludingSeed(scores, seed, topN)[q].pos == i)
  {
    var r := SelectSimilarExcludingSeed(scores, seed, topN);
    var order := RankedOthers(scores, seed);
    OthersPrefixComplete(scores, seed, |r|, i, p);
    var q :| 0 <= q < |r| && order[q] == i;
    assert r[q].pos == i;
  }

  /** The ranking with its first entry removed ranks every row other than that first one. */
  lemma RankingTail(scores: seq<real>)
    requires |scores| > 0
    ensures var order := Ranked(scores);
      Ranking.IsRankingOf(ScoreKeys(scores), Others(|scores|, order[0]), order[1..])
  {
    var keys := ScoreKeys(scores);
    var order := Ranked(scores);
    var tail := order[1..];
    var others := Others(|scores|, order[0]);
    forall i
      ensures i in tail <==> i in others
    {
      if i in tail {
        var k :| 0 <= k < |tail| && tail[k] == i;
        assert Ranking.Precedes(keys, order[0], order[k + 1]);
      }
      if i in others {
        var j :| 0 <= j < |others| && others[j] == i;
        var all := Seqs.AllPositions(|scores|);
        assert all[i] == i;
        assert i in order;
        var k :| 0 <= k < |order| && order[k] == i;
        assert tail[k - 1] == i;
      }
    }
    forall p, q | 0 <= p < q < |tail|
      ensures Ranking.Precedes(keys, tail[p], tail[q])
    {
      assert tail[p] == order[p + 1] && tail[q] == order[q + 1];
    }
  }

  /** When the seed is the top-ranked row, as-written and corrected selections agree. */
  lemma {:induction false} ExcludingSeedAgreesWhenSeedRanksFirst(scores: seq<real>, seed: nat, topN: int)
    requires |scores| > 0 && Ranked(scores)[0] == seed && topN >= 0
    ensures SelectSimilar(scores, topN) == Ok(SelectSimilarExcludingSeed(scores, seed, topN))
  {
    var keys := ScoreKeys(scores);
    var order := Ranked(scores);
    var others := Others(|scores|, seed);
    RankingTail(scores);
    Ranking.RankingUnique(keys, others, order[1..]);
    Ranking.RankingUnique(keys, others, RankedOthers(scores, seed));
    var mine := SelectSimilar(scores, topN).value;
    var theirs := SelectSimilarExcludingSeed(scores, seed, topN);
    assert |mine| == |theirs|;
    forall p | 0 <= p < |mine|
      ensures mine[p] == theirs[p]
    {
      assert mine[p].pos == order[p + 1] == order[1..][p] == theirs[p].pos;
    }
    assert mine == theirs;
  }

  /** get_content_recommendations as evidently intended: the seed row is never among the results. */
  function ContentRecommendationsExcludingSeed(catalogue: seq<Anime>, sim: Option<seq<seq<real>>>, title: string, topN: int)
    : (r: Result<seq<ContentPick>, QueryError>)
    requires sim.Some? ==> IsSquare(sim.value, |catalogue|)
    ensures r == Err(ContentModelNotBuilt) <==> sim.None?
    ensures sim.Some? ==>
      (r.Err? <==> forall j :: 0 <= j < |catalogue| ==> !TitleMatches(catalogue[j], title))
    ensures sim.Some? && r.Err? ==> r == Err(AnimeNotFound(title))
    ensures r.Ok? ==> sim.Some? && Resolve(catalogue, title).Some?
    ensures r.Ok? ==>
      var seed := Resolve(catalogue, title).value;
      forall p :: 0 <= p < |r.value| ==>
        var pick := r.value[p];
        && pick.pos < |catalogue|
        && pick.pos != seed
        && pick.score == sim.value[seed][pick.pos]
        && pick.name == catalogue[pick.pos].name
        && pick.genre == catalogue[pick.pos].genre
        && pick.rating == catalogue[pick.pos].rating
        && pick.kind == catalogue[pick.pos].kind
    ensures r.Ok? ==> forall p, q :: 0 <= p < q < |r.value| ==>
      r.value[p].score > r.value[q].score || (r.value[p].score == r.value[q].score && r.value[p].pos < r.value[q].pos)
    ensures r.Ok? ==> |r.value| == if topN <= 0 then 0 else Seqs.Min(topN, |catalogue| - 1)
    ensures r.Ok? ==>
      var seed := Resolve(catalogue, title).value;
      var chosen := SelectSimilarExcludingSeed(sim.value[seed], seed, topN);
      && |r.value| == |chosen|
      && forall p :: 0 <= p < |r.value| ==> r.value[p].pos == chosen[p].pos
  {
    if sim.None? then Err(ContentModelNotBuilt)
    else
      match Resolve(catalogue, title)
      case None => Err(AnimeNotFound(title))
      case Some(seed) =>
        var chosen := SelectSimilarExcludingSeed(sim.value[seed], seed, topN);
        var picks := PicksOf(catalogue, chosen);
        PicksOfChosen(catalogue, sim.value[seed], seed, topN, chosen, picks);
        Ok(picks)
  }

  /** The returned rows for some scored positions: each position's columns with its score. */
  function PicksOf(catalogue: seq<Anime>, chosen: seq<Scored>): (picks: seq<ContentPick>)
    requires forall p :: 0 <= p < |chosen| ==> chosen[p].pos < |catalogue|
    ensures |picks| == |chosen|
    ensures forall p :: 0 <= p < |picks| ==> picks[p] == PickOf(catalogue, chosen[p])
  {
    seq(|chosen|, p requires 0 <= p < |chosen| => PickOf(catalogue, chosen[p]))
  }

  /** The rows of the corrected selection are never the seed, carry the seed's scores, and keep the rank order. */
  lemma PicksOfChosen(catalogue: seq<Anime>, scores: seq<real>, seed: nat, topN: int,
                      chosen: seq<Scored>, picks: seq<ContentPick>)
    requires |scores| == |catalogue|
    requires chosen == SelectSimilarExcludingSeed(scores, seed, topN)
    requires picks == PicksOf(catalogue, chosen)
    ensures forall p :: 0 <= p < |picks| ==>
      && picks[p].pos < |catalogue|
      && picks[p].pos != seed
      && picks[p].score == scores[picks[p].pos]
      && picks[p].name == catalogue[picks[p].pos].name
      && picks[p].genre == catalogue[picks[p].pos].genre
      && picks[p].rating == catalogue[picks[p].pos].rating
      && picks[p].kind == catalogue[picks[p].pos].kind
    ensures forall p, q :: 0 <= p < q < |picks| ==>
      picks[p].score > picks[q].score || (picks[p].score == picks[q].score && picks[p].pos < picks[q].pos)
  {
    forall p, q | 0 <= p < q < |picks|
      ensures picks[p].score > picks[q].score || (picks[p].score == picks[q].score && picks[p].pos < picks[q].pos)
    {
      assert picks[p].pos == chosen[p].pos && picks[p].score == chosen[p].score;
      assert picks[q].pos == chosen[q].pos && picks[q].score == chosen[q].score;
    }
  }

  /** Two rows with the same genre and type, so every similarity between them is equal. */
  const TieCatalogue: seq<Anime> := [
    Anime(Some("Alpha"), "Comedy", "TV", 7.0, 100.0, 12.0, "Comedy TV"),
    Anime(Some("Beta"), "Comedy", "TV", 7.0, 100.0, 12.0, "Comedy TV")
  ]

  const TieSimilarity: seq<seq<real>> := [[1.0, 1.0], [1.0, 1.0]]

  lemma TieRanking()
    ensures Ranked([1.0, 1.0]) == [0, 1]
  {
    var keys := ScoreKeys([1.0, 1.0]);
    var all := Seqs.AllPositions(2);
    assert Ranking.Precedes(keys, 0, 1);
    assert forall i :: i in [0, 1] <==> i in all by {
      assert all[0] == 0 && all[1] == 1;
    }
    Ranking.RankingUnique(keys, all, [0, 1]);
  }

  lemma TieResolvesToSecondRow()
    ensures Resolve(TieCatalogue, "Beta") == Some(1)
  {
    assert Text.Lower("Alpha") == "alpha";
    assert Text.Lower("Beta") == "beta";
    assert !TitleMatches(TieCatalogue[0], "Beta") by {
      assert !Text.OccursAt("alpha", "beta", 0) by { assert "alpha"[0] != "beta"[0]; }
      assert !Text.OccursAt("alpha", "beta", 1) by { assert "alpha"[1] != "beta"[0]; }
    }
    assert TitleMatches(TieCatalogue[1], "Beta") by {
      assert Text.OccursAt("beta", "beta", 0);
    }
  }

  lemma TieAsWrittenSelectsSeed()
    ensures SelectSimilar([1.0, 1.0], 10) == Ok([Scored(1, 1.0)])
  {
    TieRanking();
    var chosen := SelectSimilar([1.0, 1.0], 10);
    assert chosen.Ok? && |chosen.value| == 1;
    assert chosen.value[0] == Scored(1, 1.0);
    assert chosen.value == [Scored(1, 1.0)];
  }

  lemma TieCorrectedSelectsOther()
    ensures SelectSimilarExcludingSeed([1.0, 1.0], 1, 10) == [Scored(0, 1.0)]
  {
    var others := Others(2, 1);
    assert others == [0];
    var keys := ScoreKeys([1.0, 1.0]);
    Ranking.RankingUnique(keys, others, [0]);
    Ranking.RankingUnique(keys, others, RankedOthers([1.0, 1.0], 1));
    var r := SelectSimilarExcludingSeed([1.0, 1.0], 1, 10);
    assert |r| == 1 && r[0] == Scored(0, 1.0);
  }

  /**
   Asking for titles like "Beta" returns "Beta" itself: its score ties with
   the earlier row "Alpha", the stable sort puts "Alpha" first, and it is
   "Alpha" that is dropped as rank 0.  The corrected query returns "Alpha".
   */
  lemma SeedRecommendedOnTie()
    ensures ContentRecommendations(TieCatalogue, Some(TieSimilarity), "Beta", 10)
         == Ok([ContentPick(1, Some("Beta"), "Comedy", 7.0, "TV", 1.0)])
    ensures ContentRecommendationsExcludingSeed(TieCatalogue, Some(TieSimilarity), "Beta", 10)
         == Ok([ContentPick(0, Some("Alpha"), "Comedy", 7.0, "TV", 1.0)])
  {
    TieResolvesToSecondRow();
    TieAsWrittenSelectsSeed();
    TieCorrectedSelectsOther();
    assert TieSimilarity[1] == [1.0, 1.0];
    var asWritten := ContentRecommendations(TieCatalogue, Some(TieSimilarity), "Beta", 10);
    assert asWritten.Ok? && |asWritten.value| == 1;
    assert asWritten.value[0] == PickOf(TieCatalogue, Scored(1, 1.0));
    assert asWritten.value == [ContentPick(1, Some("Beta"), "Comedy", 7.0, "TV", 1.0)];
    var corrected := ContentRecommendationsExcludingSeed(TieCatalogue, Some(TieSimilarity), "Beta", 10);
    assert corrected.Ok? && |corrected.value| == 1;
    assert corrected.value[0] == PickOf(TieCatalogue, Scored(0, 1.0));
    assert corrected.value == [ContentPick(0, Some("Alpha"), "Comedy", 7.0, "TV", 1.0)];
  }
}

=== FILE: numeric.dfy ===
/**
 The part of `pd.to_numeric(..., errors='coerce')` that reads numbers
 written as text: an optional sign, decimal digits, and optionally a point
 followed by more digits.  Anything else written as text does not parse.
 */
module Numeric {
  import opened Wrappers
  import Seqs

  predicate IsDigit(c: char) {
    '0' <= c <= '9'
  }

  predicate AllDigits(s: string) {
    forall i :: 0 <= i < |s| ==> IsDigit(s[i])
  }

  predicate IsPoint(c: char) {
    c == '.'
  }

  /** The number a string of decimal digits denotes, most significant digit first. */
  function DigitsValue(s: string): nat
    requires AllDigits(s)
  {
    if |s| == 0 then 0
    else DigitsValue(s[..|s| - 1]) * 10 + (s[|s| - 1] as int - '0' as int)
  }

  function Pow10(n: nat): (p: nat)
    ensures p >= 1
  {
    if n == 0 then 1 else 10 * Pow10(n - 1)
  }

  /**
   A number written in decimal: its sign, the value of the digits before the
   point, and the value and count of the digits after it (none when places
   is 0).  "-8.078" is Decimal(true, 8, 78, 3).
   */
  datatype Decimal = Decimal(negative: bool, whole: nat, fraction: nat, places: nat)

  /** The number a decimal denotes. */
  function Value(x: Decimal): real {
    var magnitude := x.whole as real + x.fraction as real / Pow10(x.places) as real;
    if x.negative then -magnitude else magnitude
  }

  /** The text after an optional leading '+' or '-'. */
  function Unsigned(s: string): string {
    if |s| > 0 && (s[0] == '+' || s[0] == '-') then s[1..] else s
  }

  /** At least one digit, optionally followed by a point and at least one more digit. */
  predicate IsUnsignedDecimal(b: string) {
    || (|b| > 0 && AllDigits(b))
    || (exists k :: 0 < k < |b| - 1 && b[k] == '.' && AllDigits(b[..k]) && AllDigits(b[k + 1..]))
  }

  /** An optional '+' or '-' followed by an unsigned decimal. */
  predicate IsDecimalLiteral(s: string) {
    IsUnsignedDecimal(Unsigned(s))
  }

  lemma NoPointInDigits(b: string, k: int)
    requires AllDigits(b) && 0 <= k < |b|
    ensures b[k] != '.'
  {
    assert IsDigit(b[k]);
  }

  /** When the first point of b is at k, b is an unsigned decimal exactly when digits surround that point. */
  lemma {:induction false} FirstPointSplits(b: string, k: nat)
    requires k < |b| && b[k] == '.'
    requires forall j :: 0 <= j < k ==> b[j] != '.'
    ensures IsUnsignedDecimal(b) <==> 0 < k < |b| - 1 && AllDigits(b[..k]) && AllDigits(b[k + 1..])
  {
    if |b| > 0 && AllDigits(b) {
      NoPointInDigits(b, k);
    }
    if exists j :: 0 < j < |b| - 1 && b[j] == '.' && AllDigits(b[..j]) && AllDigits(b[j + 1..]) {
      var j :| 0 < j < |b| - 1 && b[j] == '.' && AllDigits(b[..j]) && AllDigits(b[j + 1..]);
      if k < j {
        NoPointInDigits(b[..j], k);
      }
    }
  }

  /** A run of d digits is worth less than 10^d. */
  lemma {:induction false} DigitsBelow(s: string)
    requires AllDigits(s)
    ensures DigitsValue(s) < Pow10(|s|)
  {
    if |s| > 0 {
      DigitsBelow(s[..|s| - 1]);
      assert IsDigit(s[|s| - 1]);
    }
  }

  /** The digits of an unsigned decimal, or None when b is not one; the point is the first '.' in b. */
  function ParseUnsigned(b: string): (r: Option<Decimal>)
    ensures r.Some? ==> !r.value.negative && r.value.fraction < Pow10(r.value.places)
  {
    match Seqs.FirstWhere(b, IsPoint)
    case None =>
      if |b| > 0 && AllDigits(b) then Some(Decimal(false, DigitsValue(b), 0, 0)) else None
    case Some(k) =>
      if 0 < k < |b| - 1 && AllDigits(b[..k]) && AllDigits(b[k + 1..]) then
        DigitsBelow(b[k + 1..]);
        Some(Decimal(false, DigitsValue(b[..k]), DigitsValue(b[k + 1..]), |b| - k - 1))
      else None
  }

  /** ParseUnsigned reads exactly the unsigned decimals. */
  lemma ParseUnsignedDecides(b: string)
    ensures ParseUnsigned(b).Some? <==> IsUnsignedDecimal(b)
  {
    match Seqs.FirstWhere(b, IsPoint)
    case None =>
    case Some(k) =>
      FirstPointSplits(b, k);
  }

  /** The decimal a text cell spells, or None when it is not a decimal literal. */
  function ParseDecimal(s: string): (r: Option<Decimal>)
    ensures r.Some? <==> IsDecimalLiteral(s)
    ensures r.Some? ==> (r.value.negative <==> s[0] == '-')
    ensures r.Some? ==> r.value.fraction < Pow10(r.value.places)
  {
    ParseUnsignedDecides(Unsigned(s));
    match ParseUnsigned(Unsigned(s))
    case Some(x) => Some(x.(negative := s[0] == '-'))
    case None => None
  }

  /** The decimal spelling of n, without leading zeros. */
  function ShowNat(n: nat): (s: string)
    ensures |s| > 0 && AllDigits(s)
    ensures |s| > 1 ==> s[0] != '0'
  {
    if n < 10 then ['0' + n as char]
    else ShowNat(n / 10) + ['0' + (n % 10) as char]
  }

  /** The d-digit spelling of m, with leading zeros. */
  function PadDigits(m: nat, d: nat): (s: string)
    requires m < Pow10(d)
    ensures |s| == d && AllDigits(s)
    ensures DigitsValue(s) == m
  {
    if d == 0 then []
    else
      var s := PadDigits(m / 10, d - 1) + ['0' + (m % 10) as char];
      assert s[..|s| - 1] == PadDigits(m / 10, d - 1);
      s
  }

  /** The spelling of a decimal: "-8.078" for Decimal(true, 8, 78, 3), "12" for Decimal(false, 12, 0, 0). */
  function Show(x: Decimal): string
    requires x.fraction < Pow10(x.places)
  {
    (if x.negative then "-" else "") + ShowUnsigned(x)
  }

  function ShowUnsigned(x: Decimal): (s: string)
    requires x.fraction < Pow10(x.places)
    ensures |s| > 0 && IsDigit(s[0])
  {
    if x.places == 0 then ShowNat(x.whole)
    else ShowNat(x.whole) + "." + PadDigits(x.fraction, x.places)
  }

  lemma {:induction false} DigitsValueShowNat(n: nat)
    ensures DigitsValue(ShowNat(n)) == n
  {
    if n >= 10 {
      DigitsValueShowNat(n / 10);
      var s := ShowNat(n);
      assert s[..|s| - 1] == ShowNat(n / 10);
    }
  }

  /** Digits with no point are read as a whole number. */
  lemma ParseDigits(b: string)
    requires |b| > 0 && AllDigits(b)
    ensures ParseUnsigned(b) == Some(Decimal(false, DigitsValue(b), 0, 0))
  {
    forall j | 0 <= j < |b|
      ensures !IsPoint(b[j])
    {
      NoPointInDigits(b, j);
    }
  }

  lemma FirstPointAt(b: string, k: nat)
    requires k < |b| && IsPoint(b[k])
    requires forall j :: 0 <= j < k ==> !IsPoint(b[j])
    ensures Seqs.FirstWhere(b, IsPoint) == Some(k)
  {
    var found := Seqs.FirstWhere(b, IsPoint);
    assert found.Some?;
  }

  lemma ParseAtPoint(b: string, k: nat)
    requires Seqs.FirstWhere(b, IsPoint) == Some(k)
    requires 0 < k < |b| - 1 && AllDigits(b[..k]) && AllDigits(b[k + 1..])
    ensures ParseUnsigned(b) == Some(Decimal(false, DigitsValue(b[..k]), DigitsValue(b[k + 1..]), |b| - k - 1))
  {
  }

  /** Digits, a point and digits are read as the whole part and the fraction. */
  lemma ParsePointed(b: string, k: nat)
    requires 0 < k < |b| - 1 && IsPoint(b[k]) && AllDigits(b[..k]) && AllDigits(b[k + 1..])
    ensures ParseUnsigned(b) == Some(Decimal(false, DigitsValue(b[..k]), DigitsValue(b[k + 1..]), |b| - k - 1))
  {
    forall j | 0 <= j < k
      ensures !IsPoint(b[j])
    {
      NoPointInDigits(b[..k], j);
    }
    FirstPointAt(b, k);
    ParseAtPoint(b, k);
  }

  /** Reading back the unsigned spelling of a decimal gives its digits. */
  lemma ParseShowUnsigned(x: Decimal)
    requires x.fraction < Pow10(x.places)
    ensures ParseUnsigned(ShowUnsigned(x)) == Some(x.(negative := false))
  {
    var w := ShowNat(x.whole);
    DigitsValueShowNat(x.whole);
    if x.places == 0 {
      ParseDigits(w);
    } else {
      var f := PadDigits(x.fraction, x.places);
      var b := w + "." + f;
      var k := |w|;
      assert b[..k] == w;
      assert b[k + 1..] == f;
      ParsePointed(b, k);
    }
  }

  /** Reading back the spelling of any decimal gives that decimal. */
  lemma ParseShow(x: Decimal)
    requires x.fraction < Pow10(x.places)
    ensures ParseDecimal(Show(x)) == Some(x)
  {
    var digits := ShowUnsigned(x);
    var s := Show(x);
    ParseShowUnsigned(x);
    if x.negative {
      assert s == "-" + digits;
      assert s[0] == '-';
    } else {
      assert s == digits;
      assert s[0] != '-' && s[0] != '+';
    }
    assert Unsigned(s) == digits;
    assert ParseDecimal(s) == Some(x.(negative := false).(negative := s[0] == '-'));
  }
}

=== FILE: ranking.dfy ===
/**
 The orderings both queries produce: rows are ranked by a key in descending
 order, a two-part key (primary, then secondary) for the category query and
 the similarity score alone for the content query.  Both sorts are stable,
 so rows with equal keys stay in table order; here that is an explicit last
 comparison on the row's position, which turns the ranking into a strict
 total order and the ranked sequence into the only one that satisfies it.
 */
module Ranking {
  import Sorting

  datatype Key = Key(primary: real, secondary: real)

  /** A row of the table being ranked: its sort key and its position in table order. */
  datatype Entry = Entry(key: Key, pos: nat)

  /** Key k sorts strictly before key l: higher primary, then higher secondary. */
  predicate Above(k: Key, l: Key) {
    k.primary > l.primary || (k.primary == l.primary && k.secondary > l.secondary)
  }

  /** e is ranked before f: a key above f's, or the same key and earlier in the table. */
  predicate Outranks(e: Entry, f: Entry) {
    Above(e.key, f.key) || (e.key == f.key && e.pos < f.pos)
  }

  lemma OutranksIsStrictTotalOrder()
    ensures Sorting.IsStrictTotalOrder(Outranks)
  {
  }

  /** Row i of the table is ranked before row j. */
  predicate Precedes(keys: seq<Key>, i: nat, j: nat)
    requires i < |keys| && j < |keys|
  {
    Outranks(Entry(keys[i], i), Entry(keys[j], j))
  }

  predicate InRange(keys: seq<Key>, members: seq<nat>) {
    forall k :: 0 <= k < |members| ==> members[k] < |keys|
  }

  /** order lists exactly the rows named in members, each ranked before all that follow it. */
  ghost predicate IsRankingOf(keys: seq<Key>, members: seq<nat>, order: seq<nat>) {
    && InRange(keys, order)
    && (forall i :: i in order <==> i in members)
    && (forall p, q :: 0 <= p < q < |order| ==> Precedes(keys, order[p], order[q]))
  }

  function EntriesOf(keys: seq<Key>, members: seq<nat>): (es: seq<Entry>)
    requires InRange(keys, members)
    ensures |es| == |members|
    ensures forall k :: 0 <= k < |es| ==> es[k] == Entry(keys[members[k]], members[k])
  {
    seq(|members|, k requires 0 <= k < |members| => Entry(keys[members[k]], members[k]))
  }

  lemma EntriesOfMembership(keys: seq<Key>, members: seq<nat>, e: Entry)
    requires InRange(keys, members)
    ensures e in EntriesOf(keys, members) <==> e.pos in members && e.pos < |keys| && e.key == keys[e.pos]
  {
    var es := EntriesOf(keys, members);
    if e.pos in members && e.pos < |keys| && e.key == keys[e.pos] {
      var k :| 0 <= k < |members| && members[k] == e.pos;
      assert es[k] == e;
    }
  }

  /** The rows named in members, ranked (a stable sort by key, descending). */
  function RankOf(keys: seq<Key>, members: seq<nat>): (order: seq<nat>)
    requires InRange(keys, members)
    ensures IsRankingOf(keys, members, order)
    ensures Sorting.Distinct(members) ==> |order| == |members|
  {
    OutranksIsStrictTotalOrder();
    var es := EntriesOf(keys, members);
    assert Sorting.Distinct(members) ==> Sorting.Distinct(es);
    var sorted := Sorting.SortDistinct(es, Outranks);
    var order := seq(|sorted|, p requires 0 <= p < |sorted| => sorted[p].pos);
    forall p | 0 <= p < |sorted|
      ensures order[p] < |keys| && sorted[p] == Entry(keys[order[p]], order[p])
    {
      EntriesOfMembership(keys, members, sorted[p]);
    }
    forall p, q | 0 <= p < q < |order|
      ensures Precedes(keys, order[p], order[q])
    {
      assert Outranks(sorted[p], sorted[q]);
    }
    forall i
      ensures i in order <==> i in members
    {
      if i in members {
        var k :| 0 <= k < |members| && members[k] == i;
        assert es[k] in sorted;
        var p :| 0 <= p < |sorted| && sorted[p] == es[k];
        assert order[p] == i;
      }
      if i in order {
        var p :| 0 <= p < |order| && order[p] == i;
        EntriesOfMembership(keys, members, sorted[p]);
      }
    }
    order
  }

  /** Any sequence that ranks the rows named in members is the one RankOf computes. */
  lemma RankingUnique(keys: seq<Key>, members: seq<nat>, order: seq<nat>)
    requires InRange(keys, members)
    requires IsRankingOf(keys, members, order)
    ensures order == RankOf(keys, members)
  {
    OutranksIsStrictTotalOrder();
    var mine := EntriesOf(keys, order);
    var es := EntriesOf(keys, members);
    var sorted := Sorting.SortDistinct(es, Outranks);
    var theirs := RankOf(keys, members);
    assert Sorting.StrictlySorted(mine, Outranks);
    forall e
      ensures e in mine <==> e in sorted
    {
      EntriesOfMembership(keys, order, e);
      EntriesOfMembership(keys, members, e);
    }
    Sorting.SortedUnique(mine, sorted, Outranks);
    assert |order| == |theirs|;
    forall p | 0 <= p < |order|
      ensures order[p] == theirs[p]
    {
      assert mine[p].pos == order[p];
    }
  }

  /** A row whose key is strictly greater than another's is ranked before it. */
  lemma HigherKeyFirst(keys: seq<Key>, members: seq<nat>, order: seq<nat>, p: nat, q: nat)
    requires IsRankingOf(keys, members, order)
    requires p < |order| && q < |order|
    requires var a := keys[order[q]]; var b := keys[order[p]];
      a.primary > b.primary || (a.primary == b.primary && a.secondary > b.secondary)
    ensures q < p
  {
  }
}

=== FILE: seqs.dfy ===
/**
 Positional operations on tables: finding the first row that matches, the
 positions a boolean mask keeps, and Python/pandas slicing (`xs[lo:hi]`,
 `df.head(n)`), including their treatment of negative bounds.
 */
module Seqs {
  import opened Wrappers

  /** The position of the first element satisfying p (`df[mask].index[0]`), if there is one. */
  function FirstWhere<T>(xs: seq<T>, p: T -> bool): (r: Option<nat>)
    ensures r.Some? ==> r.value < |xs| && p(xs[r.value])
    ensures r.Some? ==> forall j :: 0 <= j < r.value ==> !p(xs[j])
    ensures r.None? <==> forall j :: 0 <= j < |xs| ==> !p(xs[j])
  {
    if |xs| == 0 then None
    else if p(xs[0]) then Some(0)
    else
      match FirstWhere(xs[1..], p)
      case Some(k) => Some(k + 1)
      case None => None
  }

  predicate StrictlyIncreasing(r: seq<nat>) {
    forall k, l :: 0 <= k < l < |r| ==> r[k] < r[l]
  }

  /** A strictly increasing sequence of values in [lo, hi) has at most hi - lo elements. */
  lemma {:induction false} IncreasingWithin(r: seq<nat>, lo: int, hi: int)
    requires StrictlyIncreasing(r)
    requires forall k :: 0 <= k < |r| ==> lo <= r[k] < hi
    ensures |r| == 0 || |r| <= hi - lo
  {
    if |r| > 0 {
      var rest := r[1..];
      assert forall k :: 0 <= k < |rest| ==> rest[k] == r[k + 1];
      IncreasingWithin(rest, r[0] + 1, hi);
    }
  }

  /** The positions, in table order, of the rows a boolean mask `p` keeps (`df[mask]`). */
  function Positions<T>(xs: seq<T>, p: T -> bool): (r: seq<nat>)
    ensures StrictlyIncreasing(r)
    ensures forall k :: 0 <= k < |r| ==> r[k] < |xs| && p(xs[r[k]])
    ensures forall i :: 0 <= i < |xs| && p(xs[i]) ==> i in r
    ensures (forall i :: 0 <= i < |xs| ==> !p(xs[i])) ==> r == []
  {
    if |xs| == 0 then []
    else
      var init := Positions(xs[..|xs| - 1], p);
      if p(xs[|xs| - 1]) then init + [|xs| - 1] else init
  }

  /** The concatenation of f's results over xs, in order. */
  function FlatMap<T, U(!new)>(xs: seq<T>, f: T -> seq<U>): (r: seq<U>)
    ensures forall y :: y in r <==> exists k :: 0 <= k < |xs| && y in f(xs[k])
  {
    if |xs| == 0 then []
    else
      var init := xs[..|xs| - 1];
      var r := FlatMap(init, f) + f(xs[|xs| - 1]);
      assert forall k :: 0 <= k < |init| ==> init[k] == xs[k];
      r
  }

  function Min(a: int, b: int): int {
    if a < b then a else b
  }

  function Max(a: int, b: int): int {
    if a < b then b else a
  }

  /** Every position of a table, in order. */
  function AllPositions(n: nat): (r: seq<nat>)
    ensures |r| == n
    ensures forall k :: 0 <= k < n ==> r[k] == k
  {
    seq(n, k requires 0 <= k < n => k)
  }

  /** How Python resolves a slice bound against a sequence of length n. */
  function ClampIndex(i: int, n: nat): (k: nat)
    ensures k <= n
  {
    if i < 0 then (if n + i < 0 then 0 else n + i)
    else if i > n then n
    else i
  }

  /** Python's `xs[lo:hi]`. */
  function Slice<T>(xs: seq<T>, lo: int, hi: int): (r: seq<T>)
    ensures var a := ClampIndex(lo, |xs|);
      && |r| == (if a < ClampIndex(hi, |xs|) then ClampIndex(hi, |xs|) - a else 0)
      && forall k :: 0 <= k < |r| ==> r[k] == xs[a + k]
  {
    var a := ClampIndex(lo, |xs|);
    var b := ClampIndex(hi, |xs|);
    if a < b then xs[a..b] else []
  }

  /** pandas `head(n)`: the first n rows, or for negative n all rows but the last -n. */
  function Head<T>(xs: seq<T>, n: int): (r: seq<T>)
    ensures |r| <= |xs| && r == xs[..|r|]
    ensures n >= 0 ==> |r| == (if n < |xs| then n else |xs|)
    ensures n < 0 ==> |r| == (if |xs| + n < 0 then 0 else |xs| + n)
  {
    Slice(xs, 0, n)
  }
}

=== FILE: sorting.dfy ===
/**
 Sorting under a strict total order, shared by the two orderings the
 recommender produces: the alphabetical category list and the ranking of
 catalogue rows.  Sorting here always yields a strictly increasing sequence,
 which is both sorted and free of duplicates; for a strict total order such a
 sequence is determined by its set of elements alone (SortedUnique).
 */
module Sorting {

  ghost predicate IsStrictTotalOrder<T(!new)>(less: (T, T) -> bool) {
    && (forall x :: !less(x, x))
    && (forall x, y, z :: less(x, y) && less(y, z) ==> less(x, z))
    && (forall x, y :: x != y ==> less(x, y) || less(y, x))
  }

  predicate StrictlySorted<T>(xs: seq<T>, less: (T, T) -> bool) {
    forall i, j :: 0 <= i < j < |xs| ==> less(xs[i], xs[j])
  }

  predicate Distinct<T(==)>(xs: seq<T>) {
    forall i, j :: 0 <= i < j < |xs| ==> xs[i] != xs[j]
  }

  /** Inserts x at its place in a strictly sorted sequence; an element already present is not repeated. */
  function Insert<T(!new, ==)>(xs: seq<T>, x: T, less: (T, T) -> bool): (r: seq<T>)
    requires IsStrictTotalOrder(less)
    requires StrictlySorted(xs, less)
    ensures StrictlySorted(r, less)
    ensures forall y :: y in r <==> y in xs || y == x
    ensures |r| == if x in xs then |xs| else |xs| + 1
  {
    if |xs| == 0 then [x]
    else if x == xs[0] then xs
    else if less(x, xs[0]) then [x] + xs
    else
      var rest := Insert(xs[1..], x, less);
      assert forall y :: y in rest ==> less(xs[0], y);
      [xs[0]] + rest
  }

  /** The strictly increasing enumeration of the elements of xs. */
  function SortDistinct<T(!new, ==)>(xs: seq<T>, less: (T, T) -> bool): (r: seq<T>)
    requires IsStrictTotalOrder(less)
    ensures StrictlySorted(r, less)
    ensures forall y :: y in r <==> y in xs
    ensures |r| <= |xs|
    ensures Distinct(xs) ==> |r| == |xs|
  {
    if |xs| == 0 then []
    else
      var init := xs[..|xs| - 1];
      var last := xs[|xs| - 1];
      var sorted := SortDistinct(init, less);
      assert Distinct(xs) ==> Distinct(init) && last !in init by {
        if Distinct(xs) { DistinctSplit(xs); }
      }
      Insert(sorted, last, less)
  }

  lemma DistinctSplit<T>(xs: seq<T>)
    requires |xs| > 0 && Distinct(xs)
    ensures Distinct(xs[..|xs| - 1]) && xs[|xs| - 1] !in xs[..|xs| - 1]
  {
  }

  /** The first element of a strictly sorted sequence precedes every other element. */
  lemma HeadIsLeast<T(!new)>(a: seq<T>, y: T, less: (T, T) -> bool)
    requires StrictlySorted(a, less)
    requires y in a
    ensures y == a[0] || less(a[0], y)
  {
    var i :| 0 <= i < |a| && a[i] == y;
    assert i == 0 || less(a[0], a[i]);
  }

  lemma EmptyLike<T>(a: seq<T>, b: seq<T>)
    requires forall y :: y in a <==> y in b
    ensures |a| == 0 ==> |b| == 0
  {
    if |b| > 0 {
      assert b[0] in a;
    }
  }

  /** Two strictly sorted sequences with the same elements are the same sequence. */
  lemma {:induction false} SortedUnique<T(!new)>(a: seq<T>, b: seq<T>, less: (T, T) -> bool)
    requires IsStrictTotalOrder(less)
    requires StrictlySorted(a, less) && StrictlySorted(b, less)
    requires forall y :: y in a <==> y in b
    ensures a == b
    decreases |a|
  {
    EmptyLike(a, b);
    EmptyLike(b, a);
    if |a| > 0 && |b| > 0 {
      HeadIsLeast(a, b[0], less);
      HeadIsLeast(b, a[0], less);
      assert a[0] == b[0];
      forall y
        ensures y in a[1..] <==> y in b[1..]
      {
        if y in a[1..] {
          var i :| 1 <= i < |a| && a[i] == y;
          assert less(a[0], a[i]);
          assert y in b;
          var j :| 0 <= j < |b| && b[j] == y;
          assert j != 0;
        }
        if y in b[1..] {
          var j :| 1 <= j < |b| && b[j] == y;
          assert less(b[0], b[j]);
          assert y in a;
          var i :| 0 <= i < |a| && a[i] == y;
          assert i != 0;
        }
      }
      SortedUnique(a[1..], b[1..], less);
      assert a == [a[0]] + a[1..];
      assert b == [b[0]] + b[1..];
    }
  }
}

=== FILE: text.dfy ===
/**
 The string operations the catalogue code relies on, with Python's meaning:
 `str.strip()`, `str.split(',')`, `str.lower()`, substring search and the
 code-point ordering `sorted` uses on strings.
 */
module Text {
  import Sorting

  /** Python's `str.isspace()` code points. */
  predicate IsSpace(c: char) {
    || ('\t' <= c <= '\r')
    || ('\U{1C}' <= c <= '\U{1F}')
    || c == ' '
    || c == '\U{85}'
    || c == '\U{A0}'
    || c == '\U{1680}'
    || ('\U{2000}' <= c <= '\U{200A}')
    || c == '\U{2028}'
    || c == '\U{2029}'
    || c == '\U{202F}'
    || c == '\U{205F}'
    || c == '\U{3000}'
  }

  /** The end of the run of whitespace that starts at position i. */
  function SkipSpaces(s: string, i: nat): (k: nat)
    requires i <= |s|
    ensures i <= k <= |s|
    ensures forall j :: i <= j < k ==> IsSpace(s[j])
    ensures k == |s| || !IsSpace(s[k])
    decreases |s| - i
  {
    if i < |s| && IsSpace(s[i]) then SkipSpaces(s, i + 1) else i
  }

  /** The start of the run of whitespace that ends just before position j, not reaching below lo. */
  function SkipSpacesBack(s: string, lo: nat, j: nat): (k: nat)
    requires lo <= j <= |s|
    ensures lo <= k <= j
    ensures forall m :: k <= m < j ==> IsSpace(s[m])
    ensures k == lo || !IsSpace(s[k - 1])
  {
    if j > lo && IsSpace(s[j - 1]) then SkipSpacesBack(s, lo, j - 1) else j
  }

  /** `s.strip()`: the middle of s between its leading and its trailing whitespace. */
  function Strip(s: string): (r: string)
    ensures |r| == 0 || (!IsSpace(r[0]) && !IsSpace(r[|r| - 1]))
    ensures StrippedFrom(s, r, SkipSpaces(s, 0))
  {
    var a := SkipSpaces(s, 0);
    s[a..SkipSpacesBack(s, a, |s|)]
  }

  /** Stripping only removes characters: every character of the result occurs in the input. */
  lemma StripKeepsCharacters(s: string, c: char)
    requires c in Strip(s)
    ensures c in s
  {
    var r := Strip(s);
    var a := SkipSpaces(s, 0);
    var j :| 0 <= j < |r| && r[j] == c;
    assert r[j] == s[a + j];
  }

  /** r is s with only whitespace removed: the a characters before it and all after it. */
  ghost predicate StrippedFrom(s: string, r: string, a: int) {
    && 0 <= a <= a + |r| <= |s|
    && r == s[a..a + |r|]
    && (forall i :: 0 <= i < a ==> IsSpace(s[i]))
    && (forall i :: a + |r| <= i < |s| ==> IsSpace(s[i]))
  }

  /** `s.split(sep)`: the pieces between separators; never empty, and empty pieces are kept. */
  function Split(s: string, sep: char): (r: seq<string>)
    ensures |r| >= 1
    ensures forall k :: 0 <= k < |r| ==> sep !in r[k]
    ensures Join(r, sep) == s
  {
    if |s| == 0 then [""]
    else
      var rest := Split(s[1..], sep);
      if s[0] == sep then [""] + rest
      else
        JoinCons(s[0], rest, sep);
        [[s[0]] + rest[0]] + rest[1..]
  }

  /** `sep.join(parts)`. */
  function Join(parts: seq<string>, sep: char): string
    requires |parts| >= 1
  {
    if |parts| == 1 then parts[0] else parts[0] + [sep] + Join(parts[1..], sep)
  }

  lemma JoinCons(c: char, parts: seq<string>, sep: char)
    requires |parts| >= 1
    ensures Join([[c] + parts[0]] + parts[1..], sep) == [c] + Join(parts, sep)
  {
    var q := [[c] + parts[0]] + parts[1..];
    if |parts| > 1 {
      assert q[1..] == parts[1..];
    }
  }

  /** Splitting a joined sequence of separator-free pieces gives the pieces back. */
  lemma {:induction false} SplitJoin(parts: seq<string>, sep: char)
    requires |parts| >= 1
    requires forall k :: 0 <= k < |parts| ==> sep !in parts[k]
    ensures Split(Join(parts, sep), sep) == parts
    decreases |parts|, |parts[0]|
  {
    var s := Join(parts, sep);
    if |parts[0]| == 0 {
      if |parts| > 1 {
        SplitJoin(parts[1..], sep);
        assert s == [sep] + Join(parts[1..], sep);
        assert s[1..] == Join(parts[1..], sep);
        assert parts == [""] + parts[1..];
      }
    } else {
      var c := parts[0][0];
      var shorter := [parts[0][1..]] + parts[1..];
      assert parts[0] == [c] + shorter[0];
      assert shorter[1..] == parts[1..];
      JoinCons(c, shorter, sep);
      assert s == [c] + Join(shorter, sep);
      assert s[1..] == Join(shorter, sep);
      SplitJoin(shorter, sep);
      assert c != sep by {
        assert parts[0][0] in parts[0];
      }
      assert parts == [[c] + shorter[0]] + shorter[1..];
    }
  }

  /** An ASCII or Latin-1 capital letter. */
  predicate IsUpper(c: char) {
    'A' <= c <= 'Z' || ('\U{C0}' <= c <= '\U{DE}' && c != '\U{D7}')
  }

  /** `str.lower()` on one character: ASCII and Latin-1 capitals map to their small letters. */
  function LowerChar(c: char): (r: char)
    ensures !IsUpper(r)
    ensures !IsUpper(c) ==> r == c
    ensures IsUpper(c) ==> r as int == c as int + 32
  {
    if IsUpper(c) then (c as int + 32) as char
    else c
  }

  function Lower(s: string): (r: string)
    ensures |r| == |s|
    ensures forall i :: 0 <= i < |s| ==> r[i] == LowerChar(s[i])
  {
    seq(|s|, i requires 0 <= i < |s| => LowerChar(s[i]))
  }

  /** Lowering twice is lowering once. */
  lemma LowerIdempotent(s: string)
    ensures Lower(Lower(s)) == Lower(s)
  {
  }

  /** `a.lower() == b.lower()`. */
  predicate EqualsIgnoringCase(a: string, b: string) {
    Lower(a) == Lower(b)
  }

  /** Two strings are equal ignoring case exactly when they have the same length and agree character by character once lowered. */
  lemma EqualsIgnoringCaseCharwise(a: string, b: string)
    ensures EqualsIgnoringCase(a, b) <==>
      |a| == |b| && forall k :: 0 <= k < |a| ==> LowerChar(a[k]) == LowerChar(b[k])
  {
    if |a| == |b| && forall k :: 0 <= k < |a| ==> LowerChar(a[k]) == LowerChar(b[k]) {
      assert Lower(a) == Lower(b);
    }
  }

  predicate OccursAt(hay: string, needle: string, i: int) {
    0 <= i && i + |needle| <= |hay| && hay[i..i + |needle|] == needle
  }

  /** `needle in hay`: needle occurs in hay at some position. */
  predicate Contains(hay: string, needle: string) {
    exists i :: 0 <= i <= |hay| - |needle| && OccursAt(hay, needle, i)
  }

  /** `str.contains(needle, case=False)`: the lowered needle occurs in the lowered text. */
  predicate ContainsIgnoringCase(hay: string, needle: string) {
    Contains(Lower(hay), Lower(needle))
  }

  /** needle matches hay at i, character by character, ignoring case. */
  predicate MatchesAtIgnoringCase(hay: string, needle: string, i: int) {
    && 0 <= i && i + |needle| <= |hay|
    && forall k :: 0 <= k < |needle| ==> LowerChar(hay[i + k]) == LowerChar(needle[k])
  }

  lemma LoweredOccursAt(hay: string, needle: string, i: int)
    ensures OccursAt(Lower(hay), Lower(needle), i) <==> MatchesAtIgnoringCase(hay, needle, i)
  {
    if MatchesAtIgnoringCase(hay, needle, i) {
      assert Lower(hay)[i..i + |needle|] == Lower(needle);
    }
    if OccursAt(Lower(hay), Lower(needle), i) {
      forall k | 0 <= k < |needle|
        ensures LowerChar(hay[i + k]) == LowerChar(needle[k])
      {
        assert Lower(hay)[i..i + |needle|][k] == Lower(needle)[k];
      }
    }
  }

  /** The case-insensitive test holds exactly when the needle matches the text at some position, character by character, ignoring case. */
  lemma ContainsIgnoringCaseCharwise(hay: string, needle: string)
    ensures ContainsIgnoringCase(hay, needle) <==> exists i :: MatchesAtIgnoringCase(hay, needle, i)
  {
    if ContainsIgnoringCase(hay, needle) {
      var i :| 0 <= i <= |hay| - |needle| && OccursAt(Lower(hay), Lower(needle), i);
      LoweredOccursAt(hay, needle, i);
    }
    if exists i :: MatchesAtIgnoringCase(hay, needle, i) {
      var i :| MatchesAtIgnoringCase(hay, needle, i);
      LoweredOccursAt(hay, needle, i);
    }
  }

  /** A text that contains the needle exactly also contains it ignoring case. */
  lemma ExactMatchIgnoringCase(hay: string, needle: string)
    requires Contains(hay, needle)
    ensures ContainsIgnoringCase(hay, needle)
  {
    var i :| 0 <= i <= |hay| - |needle| && OccursAt(hay, needle, i);
    assert MatchesAtIgnoringCase(hay, needle, i) by {
      forall k | 0 <= k < |needle|
        ensures hay[i + k] == needle[k]
      {
        assert hay[i..i + |needle|][k] == needle[k];
      }
    }
    ContainsIgnoringCaseCharwise(hay, needle);
  }

  /** Python's `<` on strings: code-point lexicographic order. */
  predicate LexLess(a: string, b: string) {
    if |a| == 0 then |b| > 0
    else if |b| == 0 then false
    else a[0] < b[0] || (a[0] == b[0] && LexLess(a[1..], b[1..]))
  }

  lemma {:induction false} LexLessIrreflexive(a: string)
    ensures !LexLess(a, a)
  {
    if |a| > 0 {
      LexLessIrreflexive(a[1..]);
    }
  }

  lemma {:induction false} LexLessTransitive(a: string, b: string, c: string)
    requires LexLess(a, b) && LexLess(b, c)
    ensures LexLess(a, c)
  {
    if |a| > 0 && a[0] == b[0] && b[0] == c[0] {
      LexLessTransitive(a[1..], b[1..], c[1..]);
    }
  }

  lemma {:induction false} LexLessTotal(a: string, b: string)
    requires a != b
    ensures LexLess(a, b) || LexLess(b, a)
  {
    if |a| > 0 && |b| > 0 && a[0] == b[0] {
      assert a == [a[0]] + a[1..];
      assert b == [b[0]] + b[1..];
      LexLessTotal(a[1..], b[1..]);
    }
  }

  /** A proper prefix sorts before the longer string ("Shounen" < "Shounen Ai"). */
  lemma {:induction false} LexLessProperPrefix(a: string, b: string)
    requires |b| > 0
    ensures LexLess(a, a + b)
  {
    if |a| > 0 {
      assert (a + b)[1..] == a[1..] + b;
      LexLessProperPrefix(a[1..], b);
    }
  }

  lemma LexLessIsStrictTotalOrder()
    ensures Sorting.IsStrictTotalOrder(LexLess)
  {
    forall a ensures !LexLess(a, a) {
      LexLessIrreflexive(a);
    }
    forall a, b, c | LexLess(a, b) && LexLess(b, c) ensures LexLess(a, c) {
      LexLessTransitive(a, b, c);
    }
    forall a, b | a != b ensures LexLess(a, b) || LexLess(b, a) {
      LexLessTotal(a, b);
    }
  }
}

=== FILE: wrappers.dfy ===
/** Optional values and the value-or-error returns of the recommender's queries. */
module Wrappers {

  datatype Option<+T> = None | Some(value: T) {
    function GetOr(default: T): T {
      match this
      case Some(v) => v
      case None => default
    }
  }

  /** A query returns either a table of rows or an error message; the message is the error value. */
  datatype Result<+T, +E> = Ok(value: T) | Err(error: E)
}
